=== FILE: README.md ===
# Request gate and edge logger — a Dafny model

This project models two pieces of a Next.js dashboard whose rules can be
stated exactly:

- **The request gate** (`middleware.ts`). For every request it resolves the
  client address from the forwarding headers. It then decides whether an API
  path needs a session and whether the path is exempt from throttling. For an
  API path that passes the session check and is not exempt, it picks a limiter
  and a bucket key (`user:<id>` or `ip:<address>`) and charges one point when
  the limiter admits the request. It answers with exactly one of: pass through with the
  request id and the security headers, 401, 429, or 500 when reading the
  session token throws. The two module-level limiters are instances of the
  `Limiter` class. That class abstracts the in-memory per-key limiter library
  as a map from key to points spent in the current window, against a fixed
  capacity. The response header list is the `Headers` class, which `Set`
  updates in place.
- **The edge logger** (`lib/logging.ts`). This part covers:
  - level parsing and filtering;
  - the record `formatMessage` builds, including its loop that deletes
    undefined values;
  - dispatch by level name;
  - child loggers with a fixed context;
  - the level choice for security events and API requests;
  - `sanitizeLogData`, the recursive transform that redacts the value of
    every key whose lower-cased name contains a sensitive fragment. It is
    modelled over a JSON-like `Value` datatype.

Modules:

- `Wrappers` holds `Option`.
- `Text` holds the JavaScript string operations the core relies on: trim,
  first comma-separated entry, `startsWith`, `includes`, `toLowerCase`,
  `parseInt` and number rendering.
- `Json` holds `Value` and paths into a value.
- `RateLimit` holds the `Limiter` class and the configured limits.
- `Middleware` holds the gate.
- `Logging` holds the `EdgeLogger` class and its helpers.
- `Sanitize` holds the redaction.

The model has no clock, randomness or environment access. The request id, the
timestamp, `NODE_ENV`, `LOG_LEVEL` and the limiter variables are parameters.
Reading the session token is an input: no session, a token, or an exception.
Console output is modelled by returning the channel and the record that would
be written.

## Model

| member | source | states |
|---|---|---|
| Middleware.ClientIP | middleware.ts:23-36 | A non-empty x-forwarded-for gives a trimmed address with no comma in it. Otherwise a non-empty x-real-ip is returned as is, then a non-empty platform address, and finally "unknown". The result is empty only when x-forwarded-for is set. |
| Middleware.ClientIPFirstEntry | middleware.ts:27-29 | The address is the first comma-separated entry of x-forwarded-for, with the whitespace around it removed, whatever the later entries are. |
| Text.Trim | middleware.ts:28 | `trim` never lengthens a string and leaves no whitespace at either end. |
| Text.TrimAround | middleware.ts:28 | Trimming whitespace, then a string with no whitespace at either end, then whitespace, gives exactly that string. |
| Text.TrimKeepsCharacters | middleware.ts:28 | Every character of a trimmed string comes from the original string. |
| Text.BeforeFirstComma | middleware.ts:28 | `split(",")[0]` is a prefix of the string with no comma in it, and it stops at the first comma or at the end. |
| Text.StartsWith | middleware.ts:153 | `startsWith` holds exactly when the prefix is no longer than the string and agrees with it character by character. |
| Middleware.IsApiPath | middleware.ts:145 | The gate checks paths that start with "/api/", and every public path is one of them. |
| Middleware.IsPublicPath | middleware.ts:147-154 | A path needs no session exactly when it starts with "/api/auth" or "/api/health". |
| Middleware.SkipsRateLimit | middleware.ts:175-184 | A path is exempt from throttling exactly when it starts with one of the four sign-in flow prefixes. |
| Middleware.SkipPathsArePublic | middleware.ts:147-184 | Every path exempt from throttling is under /api/auth/, so it is an API path and a public one. |
| Middleware.PathExamples | middleware.ts:147-184 | The public test is a prefix test, so /api/authx is public. /api/health is public but not exempt. /api/tasks is protected. /api/auth/callback/google is exempt. |
| Middleware.SelectLimiter | middleware.ts:97-103 | The authenticated limiter is chosen exactly when the token has a non-empty user id, with key "user:" + id. Otherwise the anonymous limiter is chosen, with key "ip:" + client address. |
| Middleware.KeyIgnoresAddress | middleware.ts:102-103 | For an authenticated caller, the choice of limiter and key does not depend on the request's headers. |
| Middleware.CheckRateLimit | middleware.ts:97-120 | The request is throttled exactly when the selected limiter has no point left for the key. Only that limiter's spent points change, as Charge says. Both limiters stay within capacity. |
| RateLimit.Limiter.constructor | middleware.ts:7-16 | A new limiter has the given capacity and window, and no key has spent anything. |
| RateLimit.Limiter.Consume | middleware.ts:105-108 | `consume` succeeds exactly when fewer than `points` points were spent. On success the key spends one more point; a refusal changes nothing. The capacity bound is preserved. |
| RateLimit.Charge | middleware.ts:105-119 | One request changes only its own key's count. The count goes up by one when the request is admitted and stays put when it is refused. It never goes above capacity. |
| RateLimit.Limiter.ExpireWindow | middleware.ts:7-10 | When a key's window ends, its count is reset to nothing, so its next request is admitted whenever the capacity is positive. No other key changes. |
| RateLimit.Replay | middleware.ts:105-108 | The verdicts of n successive `consume` calls on one key, each admitted as Consume admits it and each leaving the points Charge leaves. |
| RateLimit.ReplayMatchesVerdicts | middleware.ts:105-119 | Replaying the limiter gives exactly the per-window verdicts from the key's points already spent. |
| RateLimit.EleventhRequestRefused | middleware.ts:7-10 | From a fresh window with capacity 10, ten requests for a key are admitted and the eleventh is refused. |
| RateLimit.QuotaPerWindow | middleware.ts:7-10 | Within one window, request number i is admitted exactly when the points already spent plus i are below capacity. From a fresh window the first `points` requests pass and every later one is refused. |
| RateLimit.ReadSetting | middleware.ts:8-9 | `parseInt(variable \|\| default)` gives the default when the variable is unset or empty, and the number a decimal variable holds. |
| RateLimit.AnonymousSettings | middleware.ts:7-10 | With the variables unset or empty, anonymous callers get 10 points over 60 seconds. Decimal variables give their numbers. |
| RateLimit.AuthenticatedSettings | middleware.ts:13-16 | With the variables unset or empty, authenticated callers get 50 points over 60 seconds. The window comes from the same variable as the anonymous limiter's. |
| Text.ParseInt | middleware.ts:8-9 | `parseInt` skips leading whitespace. A string that then starts with no digit and no sign gives NaN. A leading digit other than 0 gives a number, and a leading minus never gives a positive one. |
| Text.ParseIntOfDecimal | middleware.ts:8-9 | `parseInt` reads back the decimal rendering of every natural number. |
| Text.NatToDecimal | middleware.ts:8-9 | The rendering of a natural number (the "10", "50" and "60" defaults) is non-empty, made of decimal digits only, and has no leading zero. |
| Text.DigitsValueOfDecimal | middleware.ts:8-9 | The digits of a rendered natural number denote that number. |
| Middleware.CspPolicy | middleware.ts:45-61 | The relaxed policy is used exactly when NODE_ENV is "development", and the strict one otherwise. |
| Middleware.StrictCspExtendsDevelopment | middleware.ts:45-61 | The strict policy is the development policy followed by the trusted-types directives. |
| Middleware.WithSecurityHeaders | middleware.ts:63-86 | The header map after the security headers are set holds the old headers plus the five security headers, and adds Strict-Transport-Security in production. |
| Middleware.Headers.Set | middleware.ts:63 | `headers.set` puts the value under the name, replacing any earlier value, and changes nothing else. |
| Middleware.SecurityHeadersValues | middleware.ts:63-86 | After the security headers are set, each one holds its value. The CSP is the policy for NODE_ENV. Strict-Transport-Security is the preload value in production. |
| Middleware.SecurityHeadersKeepOthers | middleware.ts:43-89 | Only security headers are added and no other header changes. Strict-Transport-Security is present exactly when NODE_ENV is "production" or it was present already. |
| Middleware.SecurityHeadersIdempotent | middleware.ts:43-89 | Applying the security headers twice gives the same header map as applying them once. |
| Middleware.ApplySecurityHeaders | middleware.ts:43-89 | Setting the headers in place on a response leaves exactly WithSecurityHeaders of its old header map. |
| Middleware.Gate | middleware.ts:127-233 | Answers 500 exactly when reading the token threw. Answers 401 exactly for a protected API path with no session. Answers 429 exactly when the limiter was consulted and refused. Otherwise the request passes with X-Request-ID and the security headers. Every answer carries the request id. The 401, 429 and 500 replies are exactly their status, JSON headers and body. No rejection carries any security header. |
| Middleware.ConsultsLimiter | middleware.ts:145-188 | The limiter is consulted only for an API path whose token was read and which is not exempt. It is always consulted for such a path when there is a session, and never for a protected path without one. |
| Middleware.HandleRequest | middleware.ts:127-233 | The pipeline answers Gate applied to the selected limiter's verdict. A point is charged only when the limiter is consulted, and only to the selected limiter. Otherwise no limiter changes. |
| Middleware.NonApiPathPasses | middleware.ts:144-211 | A path outside /api/ never gets 401 or 429. Unless the token read throws, it passes with its request id and the security headers. |
| Middleware.ExemptPathsPass | middleware.ts:174-205 | Sign-in flow paths pass whatever the credential, and the limiter is not consulted for them. |
| Middleware.VerdictIgnoredUnlessConsulted | middleware.ts:186-205 | The limiter's verdict changes the answer only when the limiter is consulted. |
| Middleware.UnauthorizedRequest | middleware.ts:147-172 | Every sessionless request to a protected API path gets 401 with body {"error":"Unauthorized"}, Content-Type and X-Request-ID, and no limiter is charged. |
| Middleware.TokenFailureReply | middleware.ts:213-231 | When reading the token throws, every path gets 500 with body {"error":"Internal server error"}, Content-Type and X-Request-ID, and no limiter is charged. |
| Middleware.PublicButThrottled | middleware.ts:147-205 | /api/health needs no session but can be throttled with 429. /api/authx needs no session. |
| Middleware.TooManyRequestsReply | middleware.ts:189-203 | The 429 reply carries its JSON body, Content-Type, X-Request-ID and a fixed Retry-After of "60". |
| Logging.ParseLogLevel | lib/logging.ts:38-46 | Each of ERROR, WARN and DEBUG is chosen exactly when the lower-cased input is its name. Anything else gives INFO. |
| Logging.ParseLogLevelName | lib/logging.ts:38-46 | Parsing a level's own name gives that level back. |
| Logging.ParseLogLevelIgnoresCase | lib/logging.ts:38-46 | Parsing gives the same level for a string and for its lower-cased form. |
| Logging.ParseLogLevelExamples | lib/logging.ts:38-46 | "ERROR" parses to ERROR, "Warn" to WARN, and "verbose" to INFO. |
| Text.Lower | lib/logging.ts:39 | `toLowerCase` keeps the length, maps each character on its own, and leaves no upper-case ASCII letter. |
| Text.LowerIdempotent | lib/logging.ts:39 | Lower-casing twice gives the same result as lower-casing once. |
| Logging.EdgeLogger.constructor | lib/logging.ts:32-36 | The level comes from LOG_LEVEL, with "info" when it is unset or empty. Development mode is on exactly when NODE_ENV is "development". |
| Logging.DefaultLevelIsInfo | lib/logging.ts:32-34 | With LOG_LEVEL unset or empty, the level is INFO. |
| Logging.EdgeLogger.ShouldLog | lib/logging.ts:48-50 | The filter table: ERROR always passes, WARN unless the level is ERROR, INFO at INFO or DEBUG, and DEBUG only at DEBUG. |
| Logging.ErrorAlwaysLogged | lib/logging.ts:48-50 | ERROR passes the filter at every configured level. |
| Logging.RaisingLevelKeepsMessages | lib/logging.ts:48-50 | Raising the configured level never suppresses a message a lower setting writes. |
| Logging.LogEntry | lib/logging.ts:52-66 | The record has a key exactly when the metadata gives it a defined value, or when it is timestamp, level or message and the metadata does not name it. Metadata values override the three, and no value is undefined. |
| Logging.Spread | lib/logging.ts:54-59 | The spread record has the metadata keys plus timestamp, level and message. Every metadata value wins, and each of the three keeps its own value when the metadata does not name it. |
| Logging.EdgeLogger.FormatMessage | lib/logging.ts:52-66 | The loop that deletes undefined keys from the spread record produces exactly LogEntry. |
| Logging.EdgeLogger.Emit | lib/logging.ts:77-99 | `error`, `warn`, `info` and `debug` write exactly when the level passes the filter. They write on that level's channel, and the record is LogEntry of the level name. |
| Logging.EdgeLogger.Log | lib/logging.ts:101-109 | `log` dispatches on the level name in any case. An unknown name goes to info. |
| Logging.EdgeLogger.Child | lib/logging.ts:111-119 | A child logger keeps its parent and its context. |
| Logging.WithContext | lib/logging.ts:113-117 | `{...context, ...meta}` has the keys of both maps. The call's value wins on a clash, and otherwise the context's value is kept. |
| Logging.ChildEmit | lib/logging.ts:113-116 | A child's level methods log the parent's way with the context merged under the call's metadata. |
| Logging.ChildLog | lib/logging.ts:117 | A child's `log` dispatches like the parent's, with the context merged under the call's metadata. |
| Logging.ChildRecord | lib/logging.ts:111-119 | In a child's record, the call's defined metadata survives. A defined context key survives unless the call names it. |
| Logging.SecurityEventLevel | lib/logging.ts:152 | Security events log at "warn" exactly for auth_failure and unauthorized_access, and at "info" otherwise. `log` parses the name back to the same level. |
| Logging.SecurityEventMeta | lib/logging.ts:154-157 | The metadata is the context plus securityEvent. The caller's context may override securityEvent. |
| Logging.LogSecurityEvent | lib/logging.ts:147-158 | A security event is written exactly when its level passes the filter. The channel is WARN exactly for auth_failure and unauthorized_access, and the record holds the event metadata. |
| Logging.ContextFields | lib/logging.ts:6-13 | A spread request context holds its request id. Each optional field (userId, ip, userAgent, method, url) is present exactly when it is set, and then holds its text. |
| Logging.ApiRequestLevel | lib/logging.ts:173 | API requests log at "warn" exactly when the status is 400 or more, and at "info" otherwise. `log` parses the name back to the same level. |
| Logging.ApiRequestMessage | lib/logging.ts:174 | The message starts with the method and the url and ends with the duration followed by "ms)". |
| Text.IntToDecimal | lib/logging.ts:174 | A number renders with a leading minus sign exactly when it is negative. |
| Text.ParseIntOfIntDecimal | lib/logging.ts:174 | The rendering of every integer, negative ones included, reads back as that integer. |
| Logging.ApiRequestData | lib/logging.ts:176-184 | The data holds the set context fields with their values, plus duration, statusCode and error. The error is undefined exactly when there is none, and otherwise carries its message. |
| Logging.ApiRequestRecordContext | lib/logging.ts:176-184 | Every set context field reaches the API request record with its value. |
| Logging.LogApiRequest | lib/logging.ts:167-187 | An API request is written exactly when its level passes the filter, on the WARN channel exactly when the status is 400 or more. The record holds the message and the request data. |
| Logging.ApiRequestDataKeys | lib/logging.ts:176-184 | The request data cannot override level, message or timestamp, and it holds the request id. |
| Logging.ApiRequestRecord | lib/logging.ts:167-187 | The API request record holds the chosen level, the message, the status, the duration and the request id. It has an "error" key only when there was an error. |
| Text.ContainsAt | lib/logging.ts:222 | `includes` holds whenever the part occurs at some position of the string. |
| Text.ContainsWitness | lib/logging.ts:222 | When `includes` holds, the part occurs at some position of the string. |
| Sanitize.IsSensitiveKey | lib/logging.ts:222 | Defines the rule: a key is sensitive when its lower-cased name contains the lower-cased form of one of the eight fragments. SensitiveKeyCore characterises it. |
| Sanitize.SanitizeValue | lib/logging.ts:208-230 | Primitives and null are returned unchanged. Arrays keep their length. Objects keep their keys except an own "__proto__", which the assignment on the fresh result object does not create. The result is clean: every sensitive key at every depth holds "[REDACTED]". |
| Sanitize.SanitizeLogData | lib/logging.ts:194-233 | The result has the input's keys except "__proto__". Every sensitive top-level key holds "[REDACTED]", and the result is clean at every depth. |
| Sanitize.ProtoKeyNotSensitive | lib/logging.ts:195-204 | "__proto__" contains none of the sensitive fragments. |
| Sanitize.ProtoKeyDropped | lib/logging.ts:217-225 | An object whose only own key is "__proto__" sanitises to an empty object, and its sibling keys survive. |
| Sanitize.SensitiveKeyCore | lib/logging.ts:195-222 | The eight fragments reduce to six: a key is sensitive exactly when its lower-cased name contains password, token, secret, key, authorization or cookie. |
| Sanitize.SensitiveKeyIgnoresCase | lib/logging.ts:222 | A key and its lower-cased form are both sensitive or both not. |
| Sanitize.MonkeyIsSensitive | lib/logging.ts:222 | The substring match is broad: "monkey" is redacted because it contains "key". |
| Sanitize.SanitizeKeepsClean | lib/logging.ts:208-230 | A value that is already clean is returned unchanged. |
| Sanitize.SanitizeUnchangedIff | lib/logging.ts:208-230 | Sanitising leaves a value unchanged exactly when it is clean. |
| Sanitize.SanitizeIdempotent | lib/logging.ts:208-230 | Sanitising twice gives the same result as sanitising once. |
| Sanitize.SanitizeAt | lib/logging.ts:213-227 | Along a path through no sensitive key and no "__proto__" key, the output has a value exactly where the input has one, and it is the sanitised input value. |
| Sanitize.PrimitiveKept | lib/logging.ts:209-211 | Every primitive reached through no sensitive key and no "__proto__" key survives unchanged. |
| Sanitize.KeysKept | lib/logging.ts:217-229 | Every object reached through no sensitive key and no "__proto__" key keeps its set of keys, except "__proto__". |
| Sanitize.RedactedAt | lib/logging.ts:219-227 | A sensitive key reached through no other sensitive key and no "__proto__" key holds "[REDACTED]" afterwards, whatever it held before. |

## Left out

- RateLimit.Limiter.Consume: a refused request spends nothing here. The library also records the refused attempt, but the verdicts within a window are the same either way.
- RateLimit.Limiter: time is abstract. Windows end only through ExpireWindow, and `msBeforeNext` and `remainingPoints` are not modelled.
- Middleware.CheckRateLimit: the warning it writes on a refusal is console output and is not modelled. The same holds for the warnings and error records the gate writes.
- Limiter capacities are naturals. A NaN or negative setting from `parseInt` reaches the library unchecked, and what the library does with it is not part of this model. `RateLimit.ReadSetting` describes only what `parseInt` yields.
- Concurrent requests and the atomicity of `consume` are not modelled. Each request is one sequential call.
- `getToken` is an input (no session, a token, or an exception with a message). `crypto.randomUUID`, `new Date().toISOString()` and `process.env` reads become parameters. No other exception source inside the pipeline is modelled.
- Retry-After is always "60", as the code writes it. It does not follow the configured window length.
- Header names are compared exactly. The case-insensitivity of real HTTP header names is not modelled.
- The `config.matcher` route patterns belong to the framework's path matcher and are not modelled.
- Logging.EdgeLogger.FormatMessage: returns the record instead of its string rendering. `JSON.stringify` and the development-mode pretty line are not modelled, so `isDevelopment` only records the mode.
- Logging: `generateRequestId` (random) and `createRequestLogger` (a `child` call on the module's logger) are not modelled separately. Callers pass the logger explicitly.
- Text.Lower: `toLowerCase` is modelled for A–Z and the Kelvin sign, the only non-ASCII character whose lower-case form is an ASCII letter. Other characters are unchanged, which is enough for matching the ASCII level names and sensitive fragments.
- Json.Value: numbers are integers, so durations and status codes are integers of either sign, and a fractional duration is not modelled. Values other than JSON-like ones (dates, functions, class instances) are not modelled. Objects are maps, so key order is not modelled.
- Sanitize.SanitizeValue: the `path` argument that `sanitizeObject` threads through is never used for the result and is left out. The input is never mutated, because values are immutable here.

=== FILE: json.dfy ===
/** The JavaScript values a log record holds, restricted to what JSON can
    carry plus `undefined`, and the paths that address a value inside one. */
module Json {
  import opened Wrappers

  datatype Value =
    | Undefined
    | Null
    | Bool(b: bool)
    | Num(n: int)
    | Str(s: string)
    | Arr(items: seq<Value>)
    | Obj(fields: map<string, Value>)
  {
    /** The values `typeof v !== "object" || v === null` holds for. */
    predicate IsPrimitive() {
      !Arr? && !Obj?
    }
  }

  /** One step into a value: an object key or an array index. */
  datatype Step = Field(name: string) | Index(i: nat)

  /** The value found by following `path` from `v`, if every step exists. */
  function At(v: Value, path: seq<Step>): (r: Option<Value>)
    ensures path == [] ==> r == Some(v)
  {
    if path == [] then Some(v)
    else match path[0]
      case Field(k) => if v.Obj? && k in v.fields then At(v.fields[k], path[1..]) else None
      case Index(i) => if v.Arr? && i < |v.items| then At(v.items[i], path[1..]) else None
  }

  /** Following `path + [s]` is following `path`, then the one step `s`. */
  lemma {:induction false} AtSnoc(v: Value, path: seq<Step>, s: Step)
    ensures At(v, path + [s]) == if At(v, path).Some? then At(At(v, path).value, [s]) else None
  {
    if path != [] {
      assert (path + [s])[0] == path[0];
      assert (path + [s])[1..] == path[1..] + [s];
      match path[0]
      case Field(k) =>
        if v.Obj? && k in v.fields {
          AtSnoc(v.fields[k], path[1..], s);
        }
      case Index(i) =>
        if v.Arr? && i < |v.items| {
          AtSnoc(v.items[i], path[1..], s);
        }
    } else {
      assert path + [s] == [s];
    }
  }
}

=== FILE: logging.dfy ===
/** The edge-runtime logger of lib/logging.ts: level parsing and filtering,
    the shape of a log record, dispatch by level name, child loggers with a
    fixed context, and the helpers for security events and API requests.

    Writing to the console is modelled by returning what would be written: a
    Line naming the console channel and the record. Rendering the record as a
    string (JSON or the development format), the clock and the environment
    are not part of this model; the timestamp and the environment values are
    parameters. */
module Logging {
  import opened Wrappers
  import opened Text
  import opened Json

  // ---------------------------------------------------------------------------
  // Levels
  // ---------------------------------------------------------------------------

  datatype LogLevel = Error | Warn | Info | Debug
  {
    /** The numeric value of the level: ERROR 0, WARN 1, INFO 2, DEBUG 3. */
    function Rank(): nat {
      match this
      case Error => 0
      case Warn => 1
      case Info => 2
      case Debug => 3
    }

    /** The lower-case name the logger writes into a record. */
    function Name(): string {
      match this
      case Error => "error"
      case Warn => "warn"
      case Info => "info"
      case Debug => "debug"
    }
  }

  /** `parseLogLevel`: the four names in any letter case; anything else is INFO. */
  function ParseLogLevel(level: string): (r: LogLevel)
    ensures r == Error <==> Lower(level) == "error"
    ensures r == Warn <==> Lower(level) == "warn"
    ensures r == Debug <==> Lower(level) == "debug"
    ensures r == Info <==> Lower(level) != "error" && Lower(level) != "warn" && Lower(level) != "debug"
  {
    var name := Lower(level);
    if name == "error" then Error
    else if name == "warn" then Warn
    else if name == "info" then Info
    else if name == "debug" then Debug
    else Info
  }

  /** Parsing a level's own name gives the level back. */
  lemma ParseLogLevelName(l: LogLevel)
    ensures ParseLogLevel(l.Name()) == l
  {
    assert Lower("error") == "error";
    assert Lower("warn") == "warn";
    assert Lower("info") == "info";
    assert Lower("debug") == "debug";
  }

  /** Parsing ignores letter case. */
  lemma ParseLogLevelIgnoresCase(level: string)
    ensures ParseLogLevel(Lower(level)) == ParseLogLevel(level)
  {
    LowerIdempotent(level);
  }

  /** An upper-case name parses like the lower-case one, and an unknown name
      falls back to INFO. */
  lemma ParseLogLevelExamples()
    ensures ParseLogLevel("ERROR") == Error
    ensures ParseLogLevel("Warn") == Warn
    ensures ParseLogLevel("verbose") == Info
  {
    assert Lower("ERROR") == "error";
    assert Lower("Warn") == "warn";
    assert Lower("verbose") == "verbose";
  }

  // ---------------------------------------------------------------------------
  // Log records
  // ---------------------------------------------------------------------------

  /** The record before undefined values are removed: timestamp, level and
      message, then every metadata key, which wins on a clash. */
  function Spread(level: string, message: string, meta: map<string, Value>, timestamp: string)
    : (r: map<string, Value>)
    ensures r.Keys == meta.Keys + {"timestamp", "level", "message"}
    ensures forall k :: k in meta ==> r[k] == meta[k]
    ensures "timestamp" !in meta ==> r["timestamp"] == Str(timestamp)
    ensures "level" !in meta ==> r["level"] == Str(level)
    ensures "message" !in meta ==> r["message"] == Str(message)
  {
    map["timestamp" := Str(timestamp), "level" := Str(level), "message" := Str(message)] + meta
  }

  /** The record `formatMessage` builds. It has a key exactly when the
      metadata gives that key a defined value, or when the key is one of
      timestamp, level and message and the metadata does not mention it.
      Metadata values override the three, and nothing left is undefined. */
  function LogEntry(level: string, message: string, meta: map<string, Value>, timestamp: string)
    : (e: map<string, Value>)
    ensures forall k :: k in e <==>
              (k in meta && meta[k] != Undefined) ||
              (k !in meta && (k == "timestamp" || k == "level" || k == "message"))
    ensures forall k :: k in e && k in meta ==> e[k] == meta[k]
    ensures "timestamp" !in meta ==> "timestamp" in e && e["timestamp"] == Str(timestamp)
    ensures "level" !in meta ==> "level" in e && e["level"] == Str(level)
    ensures "message" !in meta ==> "message" in e && e["message"] == Str(message)
    ensures forall k :: k in e ==> e[k] != Undefined
  {
    var full := Spread(level, message, meta, timestamp);
    map k | k in full && full[k] != Undefined :: full[k]
  }

  /** What one console call writes: the channel (console.error, .warn, .info
      or .debug) and the record. */
  datatype Line = Line(channel: LogLevel, entry: map<string, Value>)

  // ---------------------------------------------------------------------------
  // The logger
  // ---------------------------------------------------------------------------

  class EdgeLogger {
    var logLevel: LogLevel
    var isDevelopment: bool

    /** The level comes from LOG_LEVEL, "info" when it is unset or empty; the
        development flag is whether NODE_ENV is "development". */
    constructor (logLevelVar: Option<string>, nodeEnv: Option<string>)
      ensures logLevel == ParseLogLevel(OrDefault(logLevelVar, "info"))
      ensures isDevelopment <==> nodeEnv == Some("development")
    {
      logLevel := ParseLogLevel(OrDefault(logLevelVar, "info"));
      isDevelopment := nodeEnv == Some("development");
    }

    /** `shouldLog`: a message is written when its level is at most the
        configured one. */
    predicate ShouldLog(level: LogLevel): (r: bool)
      reads this
      ensures r <==> || level == Error
                     || (level == Warn && logLevel != Error)
                     || (level == Info && (logLevel == Info || logLevel == Debug))
                     || (level == Debug && logLevel == Debug)
    {
      level.Rank() <= logLevel.Rank()
    }

    /** `formatMessage`: spread the metadata over timestamp, level and
        message, then delete every key whose value is undefined. */
    method FormatMessage(level: string, message: string, meta: map<string, Value>, timestamp: string)
      returns (entry: map<string, Value>)
      ensures entry == LogEntry(level, message, meta, timestamp)
    {
      var full := Spread(level, message, meta, timestamp);
      entry := full;
      var pending := full.Keys;
      while pending != {}
        invariant pending <= full.Keys
        invariant forall k :: k in full ==> (k in entry <==> k in pending || full[k] != Undefined)
        invariant forall k :: k in entry ==> k in full && entry[k] == full[k]
        decreases pending
      {
        var k :| k in pending;
        if entry[k] == Undefined {
          entry := entry - {k};
        }
        pending := pending - {k};
      }
    }

    /** `error`, `warn`, `info` and `debug`: write the record on the
        level's channel when the level passes the filter, and nothing
        otherwise. */
    method Emit(level: LogLevel, message: string, meta: map<string, Value>, timestamp: string)
      returns (out: Option<Line>)
      ensures out.Some? <==> ShouldLog(level)
      ensures out.Some? ==> out.value == Line(level, LogEntry(level.Name(), message, meta, timestamp))
    {
      if ShouldLog(level) {
        var entry := FormatMessage(level.Name(), message, meta, timestamp);
        out := Some(Line(level, entry));
      } else {
        out := None;
      }
    }

    /** `log`: dispatch on the level name in any letter case; an unknown
        name is logged as info. */
    method Log(level: string, message: string, meta: map<string, Value>, timestamp: string)
      returns (out: Option<Line>)
      ensures var l := ParseLogLevel(level);
        && (out.Some? <==> ShouldLog(l))
        && (out.Some? ==> out.value == Line(l, LogEntry(l.Name(), message, meta, timestamp)))
    {
      out := Emit(ParseLogLevel(level), message, meta, timestamp);
    }

    /** `child`: a logger that adds a fixed context to every call. */
    method Child(context: map<string, Value>) returns (c: ChildLogger)
      ensures c.parent == this && c.context == context
    {
      c := ChildLogger(this, context);
    }
  }

  /** Errors are written whatever the configured level. */
  lemma ErrorAlwaysLogged(logger: EdgeLogger)
    ensures logger.ShouldLog(Error)
  {
  }

  /** Raising the configured level never suppresses a message that a lower
      setting writes. */
  lemma RaisingLevelKeepsMessages(lower: EdgeLogger, higher: EdgeLogger, level: LogLevel)
    requires lower.logLevel.Rank() <= higher.logLevel.Rank()
    requires lower.ShouldLog(level)
    ensures higher.ShouldLog(level)
  {
  }

  /** With LOG_LEVEL unset or empty the logger writes error, warn and info
      but not debug. */
  lemma DefaultLevelIsInfo(logLevelVar: Option<string>)
    requires !Truthy(logLevelVar)
    ensures ParseLogLevel(OrDefault(logLevelVar, "info")) == Info
  {
    ParseLogLevelName(Info);
  }

  // ---------------------------------------------------------------------------
  // Child loggers
  // ---------------------------------------------------------------------------

  datatype ChildLogger = ChildLogger(parent: EdgeLogger, context: map<string, Value>)

  /** The metadata a child logger passes on, context first and the call's
      metadata over it: every key of either, the call's value winning. */
  function WithContext(context: map<string, Value>, meta: map<string, Value>): (r: map<string, Value>)
    ensures r.Keys == context.Keys + meta.Keys
    ensures forall k :: k in meta ==> r[k] == meta[k]
    ensures forall k :: k in context && k !in meta ==> r[k] == context[k]
  {
    context + meta
  }

  /** A child's `error`, `warn`, `info` and `debug`. */
  method ChildEmit(c: ChildLogger, level: LogLevel, message: string, meta: map<string, Value>, timestamp: string)
    returns (out: Option<Line>)
    ensures out.Some? <==> c.parent.ShouldLog(level)
    ensures out.Some? ==> out.value == Line(level, LogEntry(level.Name(), message, WithContext(c.context, meta), timestamp))
  {
    out := c.parent.Emit(level, message, WithContext(c.context, meta), timestamp);
  }

  /** A child's `log`. */
  method ChildLog(c: ChildLogger, level: string, message: string, meta: map<string, Value>, timestamp: string)
    returns (out: Option<Line>)
    ensures var l := ParseLogLevel(level);
      && (out.Some? <==> c.parent.ShouldLog(l))
      && (out.Some? ==> out.value == Line(l, LogEntry(l.Name(), message, WithContext(c.context, meta), timestamp)))
  {
    out := c.parent.Log(level, message, WithContext(c.context, meta), timestamp);
  }

  /** In a child's record a context key survives unless the call's metadata
      names it, and the call's defined metadata always survives. */
  lemma ChildRecord(context: map<string, Value>, meta: map<string, Value>, level: string,
                    message: string, timestamp: string, k: string)
    ensures var e := LogEntry(level, message, WithContext(context, meta), timestamp);
      && (k in meta && meta[k] != Undefined ==> k in e && e[k] == meta[k])
      && (k in context && k !in meta && context[k] != Undefined ==> k in e && e[k] == context[k])
  {
  }

  // ---------------------------------------------------------------------------
  // Security events
  // ---------------------------------------------------------------------------

  datatype SecurityEvent = AuthSuccess | AuthFailure | RateLimit | UnauthorizedAccess | TokenRefresh
  {
    function Name(): string {
      match this
      case AuthSuccess => "auth_success"
      case AuthFailure => "auth_failure"
      case RateLimit => "rate_limit"
      case UnauthorizedAccess => "unauthorized_access"
      case TokenRefresh => "token_refresh"
    }
  }

  /** The level name a security event is logged at: "warn" for failed
      authentication and unauthorised access, "info" for the others. */
  function SecurityEventLevel(event: SecurityEvent): (r: string)
    ensures r == "warn" <==> event == AuthFailure || event == UnauthorizedAccess
    ensures r == "warn" || r == "info"
    ensures ParseLogLevel(r).Name() == r
  {
    ParseLogLevelName(Warn);
    ParseLogLevelName(Info);
    if event == AuthFailure || event == UnauthorizedAccess then "warn" else "info"
  }

  /** The metadata of a security event: the event name under
      "securityEvent", then the caller's context, which may override it. */
  function SecurityEventMeta(event: SecurityEvent, context: map<string, Value>): (m: map<string, Value>)
    ensures m.Keys == context.Keys + {"securityEvent"}
    ensures forall k :: k in context ==> m[k] == context[k]
    ensures "securityEvent" !in context ==> m["securityEvent"] == Str(event.Name())
  {
    map["securityEvent" := Str(event.Name())] + context
  }

  /** `logSecurityEvent`: a warning for failed authentication and
      unauthorised access, info for the other events. */
  method LogSecurityEvent(logger: EdgeLogger, event: SecurityEvent, message: string,
                          context: map<string, Value>, timestamp: string)
    returns (out: Option<Line>)
    ensures var l := ParseLogLevel(SecurityEventLevel(event));
      && (out.Some? <==> logger.ShouldLog(l))
      && (out.Some? ==> out.value == Line(l, LogEntry(SecurityEventLevel(event), message,
                                                        SecurityEventMeta(event, context), timestamp)))
    ensures out.Some? ==> (out.value.channel == Warn <==> event == AuthFailure || event == UnauthorizedAccess)
  {
    out := logger.Log(SecurityEventLevel(event), message, SecurityEventMeta(event, context), timestamp);
  }

  // ---------------------------------------------------------------------------
  // API requests
  // ---------------------------------------------------------------------------

  /** `RequestContext`: a request id and the optional facts about a request. */
  datatype RequestContext = RequestContext(
    requestId: string,
    userId: Option<string>,
    ip: Option<string>,
    userAgent: Option<string>,
    httpMethod: Option<string>,
    url: Option<string>)

  /** The error an API request failed with: its message and, when there is
      one, its stack. */
  datatype ErrorInfo = ErrorInfo(message: string, stack: Option<string>)

  function OptionalText(v: Option<string>): Value {
    if v.Some? then Str(v.value) else Undefined
  }

  /** A string that may be undefined, as a template literal renders it. */
  function Rendered(v: Option<string>): string {
    if v.Some? then v.value else "undefined"
  }

  /** The keys of a request context that are set. */
  function ContextFields(c: RequestContext): (m: map<string, Value>)
    ensures m.Keys <= {"requestId", "userId", "ip", "userAgent", "method", "url"}
    ensures "requestId" in m && m["requestId"] == Str(c.requestId)
    ensures ("userId" in m <==> c.userId.Some?) && (c.userId.Some? ==> m["userId"] == Str(c.userId.value))
    ensures ("ip" in m <==> c.ip.Some?) && (c.ip.Some? ==> m["ip"] == Str(c.ip.value))
    ensures ("userAgent" in m <==> c.userAgent.Some?) && (c.userAgent.Some? ==> m["userAgent"] == Str(c.userAgent.value))
    ensures ("method" in m <==> c.httpMethod.Some?) && (c.httpMethod.Some? ==> m["method"] == Str(c.httpMethod.value))
    ensures ("url" in m <==> c.url.Some?) && (c.url.Some? ==> m["url"] == Str(c.url.value))
    ensures forall k :: k in m ==> m[k] != Undefined
  {
    var m0 := map["requestId" := Str(c.requestId)];
    var m1 := WithOptional(m0, "userId", c.userId);
    var m2 := WithOptional(m1, "ip", c.ip);
    var m3 := WithOptional(m2, "userAgent", c.userAgent);
    var m4 := WithOptional(m3, "method", c.httpMethod);
    WithOptional(m4, "url", c.url)
  }

  /** `m` with key `k` bound to `v`'s text when `v` is set; an unset field
      is left out, as a spread drops an undefined property from the JSON. */
  function WithOptional(m: map<string, Value>, k: string, v: Option<string>): map<string, Value> {
    if v.Some? then m[k := Str(v.value)] else m
  }

  /** The level name an API request is logged at: "warn" when the status is
      400 or more, "info" otherwise. */
  function ApiRequestLevel(statusCode: int): (r: string)
    ensures r == "warn" <==> statusCode >= 400
    ensures r == "warn" || r == "info"
    ensures ParseLogLevel(r).Name() == r
  {
    ParseLogLevelName(Warn);
    ParseLogLevelName(Info);
    if statusCode >= 400 then "warn" else "info"
  }

  /** The message of an API request record: method, url, status and
      duration in milliseconds. It starts with the method and the url and
      ends with the duration and "ms)". */
  function ApiRequestMessage(c: RequestContext, duration: int, statusCode: int): (r: string)
    ensures Rendered(c.httpMethod) + " " + Rendered(c.url) + " - " <= r
    ensures |r| >= |IntToDecimal(duration)| + 3
    ensures r[|r| - |IntToDecimal(duration)| - 3..] == IntToDecimal(duration) + "ms)"
  {
    var head := Rendered(c.httpMethod) + " " + Rendered(c.url) + " - ";
    var front := head + IntToDecimal(statusCode) + " (";
    var tail := IntToDecimal(duration) + "ms)";
    assert head <= front;
    assert (front + tail)[|front|..] == tail;
    front + tail
  }

  /** The metadata of an API request record: the context, the duration, the
      status, and the error (undefined when there is none). */
  function ApiRequestData(c: RequestContext, duration: int, statusCode: int, error: Option<ErrorInfo>)
    : (m: map<string, Value>)
    ensures m.Keys == ContextFields(c).Keys + {"duration", "statusCode", "error"}
    ensures forall k :: k in ContextFields(c) ==> m[k] == ContextFields(c)[k]
    ensures m["duration"] == Num(duration) && m["statusCode"] == Num(statusCode)
    ensures m["error"] == Undefined <==> error.None?
    ensures error.Some? ==> m["error"].Obj? && "message" in m["error"].fields && m["error"].fields["message"] == Str(error.value.message)
  {
    ContextFields(c) + map[
      "duration" := Num(duration),
      "statusCode" := Num(statusCode),
      "error" := if error.Some?
                 then Obj(map["message" := Str(error.value.message), "stack" := OptionalText(error.value.stack)])
                 else Undefined]
  }

  /** `logApiRequest`: a warning when the status is 400 or more, info
      otherwise. */
  method LogApiRequest(logger: EdgeLogger, c: RequestContext, duration: int, statusCode: int,
                       error: Option<ErrorInfo>, timestamp: string)
    returns (out: Option<Line>)
    ensures var l := ParseLogLevel(ApiRequestLevel(statusCode));
      && (out.Some? <==> logger.ShouldLog(l))
      && (out.Some? ==> out.value == Line(l, LogEntry(ApiRequestLevel(statusCode), ApiRequestMessage(c, duration, statusCode),
                                                        ApiRequestData(c, duration, statusCode, error), timestamp)))
    ensures out.Some? ==> (out.value.channel == Warn <==> statusCode >= 400)
  {
    var level := ApiRequestLevel(statusCode);
    out := logger.Log(level, ApiRequestMessage(c, duration, statusCode),
                      ApiRequestData(c, duration, statusCode, error), timestamp);
  }

  /** The request data cannot override the level, the message or the
      timestamp of the record, and it carries the request id. */
  lemma ApiRequestDataKeys(c: RequestContext, duration: int, statusCode: int, error: Option<ErrorInfo>)
    ensures var meta := ApiRequestData(c, duration, statusCode, error);
      && "level" !in meta && "message" !in meta && "timestamp" !in meta
      && "requestId" in meta && meta["requestId"] == Str(c.requestId)
  {
    var fields := ContextFields(c);
    assert "level" !in fields && "message" !in fields && "timestamp" !in fields;
  }

  /** What an API request record holds: the level and message as computed
      (the context cannot override them), the status and duration, the
      request id, and an "error" key only when there was an error. */
  lemma ApiRequestRecord(c: RequestContext, duration: int, statusCode: int,
                         error: Option<ErrorInfo>, timestamp: string)
    ensures var level := ApiRequestLevel(statusCode);
      var e := LogEntry(level, ApiRequestMessage(c, duration, statusCode),
                        ApiRequestData(c, duration, statusCode, error), timestamp);
      && "level" in e && e["level"] == Str(level)
      && "message" in e && e["message"] == Str(ApiRequestMessage(c, duration, statusCode))
      && "statusCode" in e && e["statusCode"] == Num(statusCode)
      && "duration" in e && e["duration"] == Num(duration)
      && "requestId" in e && e["requestId"] == Str(c.requestId)
      && ("error" in e <==> error.Some?)
  {
    var msg := ApiRequestMessage(c, duration, statusCode);
    var meta := ApiRequestData(c, duration, statusCode, error);
    ApiRequestDataKeys(c, duration, statusCode, error);
    RecordOf(ApiRequestLevel(statusCode), msg, meta, timestamp);
  }

  /** Every set field of the request context reaches the API request record
      with its value: the spread of the context survives into the log. */
  lemma ApiRequestRecordContext(c: RequestContext, duration: int, statusCode: int,
                                error: Option<ErrorInfo>, timestamp: string)
    ensures var e := LogEntry(ApiRequestLevel(statusCode), ApiRequestMessage(c, duration, statusCode),
                              ApiRequestData(c, duration, statusCode, error), timestamp);
      forall k :: k in ContextFields(c) ==> k in e && e[k] == ContextFields(c)[k]
  {
  }

  lemma RecordOf(level: string, message: string, meta: map<string, Value>, timestamp: string)
    requires "level" !in meta && "message" !in meta && "error" in meta
    requires "statusCode" in meta && meta["statusCode"] != Undefined
    requires "duration" in meta && meta["duration"] != Undefined
    requires "requestId" in meta && meta["requestId"] != Undefined
    ensures var e := LogEntry(level, message, meta, timestamp);
      && e["level"] == Str(level) && e["message"] == Str(message)
      && e["statusCode"] == meta["statusCode"] && e["duration"] == meta["duration"]
      && e["requestId"] == meta["requestId"]
      && ("error" in e <==> meta["error"] != Undefined)
  {
  }
}

=== FILE: middleware.dfy ===
/** The request gate of middleware.ts. For every request it resolves the
    client address, asks whether an API path needs a session, whether it is
    exempt from throttling, picks the limiter and the bucket key, and answers
    with exactly one of: pass through with the security headers, 401, 429,
    or 500 when reading the session token throws.

    The session token, the request id and NODE_ENV are parameters; the
    limiters are the two module-level Limiter objects. */
module Middleware {
  import opened Wrappers
  import opened Text
  import opened RateLimit

  // ---------------------------------------------------------------------------
  // Requests and the client address
  // ---------------------------------------------------------------------------

  /** What the gate reads from a request: its path, the x-forwarded-for and
      x-real-ip headers, and the address the platform reports. */
  datatype Request = Request(
    path: string,
    forwardedFor: Option<string>,
    realIp: Option<string>,
    ip: Option<string>)

  /** A decoded session token; its user id may be missing or empty. */
  datatype Token = Token(userId: Option<string>)

  /** What reading the session token gives: no session, a token, or an
      exception with its message. */
  datatype TokenResult = NoSession | Session(token: Token) | Failed(message: string)

  function SessionToken(t: TokenResult): Option<Token> {
    if t.Session? then Some(t.token) else None
  }

  /** `getClientIP`: the first entry of a non-empty x-forwarded-for, trimmed;
      otherwise a non-empty x-real-ip; otherwise the platform's address when
      it is non-empty; otherwise "unknown". */
  function ClientIP(req: Request): (ip: string)
    ensures Truthy(req.forwardedFor) ==>
              ',' !in ip && (ip == [] || (!IsJsWhitespace(ip[0]) && !IsJsWhitespace(ip[|ip| - 1])))
    ensures !Truthy(req.forwardedFor) && Truthy(req.realIp) ==> ip == req.realIp.value
    ensures !Truthy(req.forwardedFor) && !Truthy(req.realIp) && Truthy(req.ip) ==> ip == req.ip.value
    ensures !Truthy(req.forwardedFor) && !Truthy(req.realIp) && !Truthy(req.ip) ==> ip == "unknown"
    ensures ip == [] ==> Truthy(req.forwardedFor)
  {
    if Truthy(req.forwardedFor) then
      var first := BeforeFirstComma(req.forwardedFor.value);
      var address := Trim(first);
      assert ',' !in address by {
        if ',' in address {
          TrimKeepsCharacters(first, ',');
        }
      }
      address
    else if Truthy(req.realIp) then req.realIp.value
    else OrDefault(req.ip, "unknown")
  }

  /** The address is the first entry of x-forwarded-for with the whitespace
      around it cut off, whatever the later entries are. */
  lemma ClientIPFirstEntry(req: Request, pre: string, address: string, post: string, rest: string)
    requires AllWhitespace(pre) && AllWhitespace(post)
    requires address == [] || (!IsJsWhitespace(address[0]) && !IsJsWhitespace(address[|address| - 1]))
    requires ',' !in pre + address + post
    requires rest == [] || rest[0] == ','
    requires pre + address + post + rest != []
    requires req.forwardedFor == Some(pre + address + post + rest)
    ensures ClientIP(req) == address
  {
    BeforeFirstCommaOf(pre + address + post, rest);
    TrimAround(pre, address, post);
  }

  // ---------------------------------------------------------------------------
  // Paths
  // ---------------------------------------------------------------------------

  const PublicPaths: seq<string> := ["/api/auth", "/api/health"]

  const SkipRateLimitPaths: seq<string> :=
    ["/api/auth/callback", "/api/auth/signin", "/api/auth/signout", "/api/auth/session"]

  predicate StartsWithAny(path: string, prefixes: seq<string>) {
    exists i :: 0 <= i < |prefixes| && StartsWith(path, prefixes[i])
  }

  /** Paths under /api/ are the ones the gate checks. */
  predicate IsApiPath(path: string): (r: bool)
    ensures IsPublicPath(path) ==> r
  {
    StartsWith(path, "/api/")
  }

  /** Paths that need no session: a plain prefix test, so "/api/authx" is
      public too. */
  predicate IsPublicPath(path: string): (r: bool)
    ensures r <==> StartsWith(path, "/api/auth") || StartsWith(path, "/api/health")
  {
    assert StartsWith(path, PublicPaths[0]) ==> StartsWithAny(path, PublicPaths);
    assert StartsWith(path, PublicPaths[1]) ==> StartsWithAny(path, PublicPaths);
    StartsWithAny(path, PublicPaths)
  }

  /** The sign-in flow's paths, which are never throttled. */
  predicate SkipsRateLimit(path: string): (r: bool)
    ensures r <==> || StartsWith(path, "/api/auth/callback") || StartsWith(path, "/api/auth/signin")
                   || StartsWith(path, "/api/auth/signout") || StartsWith(path, "/api/auth/session")
  {
    assert StartsWith(path, SkipRateLimitPaths[0]) ==> StartsWithAny(path, SkipRateLimitPaths);
    assert StartsWith(path, SkipRateLimitPaths[1]) ==> StartsWithAny(path, SkipRateLimitPaths);
    assert StartsWith(path, SkipRateLimitPaths[2]) ==> StartsWithAny(path, SkipRateLimitPaths);
    assert StartsWith(path, SkipRateLimitPaths[3]) ==> StartsWithAny(path, SkipRateLimitPaths);
    StartsWithAny(path, SkipRateLimitPaths)
  }

  /** Every path exempt from throttling is an API path under /api/auth/, so
      it is also public. */
  lemma SkipPathsArePublic(path: string)
    requires SkipsRateLimit(path)
    ensures IsApiPath(path) && IsPublicPath(path) && StartsWith(path, "/api/auth/")
  {
    var i :| 0 <= i < |SkipRateLimitPaths| && StartsWith(path, SkipRateLimitPaths[i]);
    var p := SkipRateLimitPaths[i];
    assert "/api/auth/" <= p;
    assert "/api/" <= p;
    assert PublicPaths[0] <= p;
  }

  /** The public test is a prefix test: "/api/authx" needs no session, and
      "/api/health" needs none but is not exempt from throttling. */
  lemma PathExamples()
    ensures IsApiPath("/api/authx") && IsPublicPath("/api/authx")
    ensures IsApiPath("/api/health") && IsPublicPath("/api/health") && !SkipsRateLimit("/api/health")
    ensures IsApiPath("/api/tasks") && !IsPublicPath("/api/tasks")
    ensures SkipsRateLimit("/api/auth/callback/google")
  {
    assert PublicPaths[0] <= "/api/authx";
    assert PublicPaths[1] <= "/api/health";
    assert SkipRateLimitPaths[0] <= "/api/auth/callback/google";
    assert !(PublicPaths[0] <= "/api/tasks") by { assert "/api/tasks"[5] != PublicPaths[0][5]; }
    assert !(PublicPaths[1] <= "/api/tasks") by { assert "/api/tasks"[5] != PublicPaths[1][5]; }
    forall i | 0 <= i < |SkipRateLimitPaths|
      ensures !StartsWith("/api/health", SkipRateLimitPaths[i])
    {
      assert "/api/health"[5] != SkipRateLimitPaths[i][5];
    }
  }

  // ---------------------------------------------------------------------------
  // Limiter and key selection
  // ---------------------------------------------------------------------------

  datatype Pool = Anonymous | Authenticated

  /** Which limiter a request is charged to and under which key. */
  datatype LimiterChoice = LimiterChoice(pool: Pool, key: string)

  /** The limiter and bucket key of `checkRateLimit`: a token with a
      non-empty user id is charged to the authenticated limiter under
      "user:<id>"; anything else to the anonymous limiter under "ip:<address>". */
  function SelectLimiter(req: Request, token: Option<Token>): (c: LimiterChoice)
    ensures c.pool == Authenticated <==> token.Some? && Truthy(token.value.userId)
    ensures c.pool == Authenticated ==> c.key == "user:" + token.value.userId.value
    ensures c.pool == Anonymous ==> c.key == "ip:" + ClientIP(req)
  {
    if token.Some? && Truthy(token.value.userId) then
      LimiterChoice(Authenticated, "user:" + token.value.userId.value)
    else
      LimiterChoice(Anonymous, "ip:" + ClientIP(req))
  }

  /** The address never enters an authenticated caller's key: two requests
      with the same user id are charged alike, whatever their headers. */
  lemma KeyIgnoresAddress(req1: Request, req2: Request, token: Option<Token>)
    requires token.Some? && Truthy(token.value.userId)
    ensures SelectLimiter(req1, token) == SelectLimiter(req2, token)
  {
  }

  /** `checkRateLimit`: charge one point to the selected limiter; the
      request is throttled exactly when that is refused. Only the selected
      limiter can change. */
  method CheckRateLimit(req: Request, token: Option<Token>, anonymous: Limiter, authenticated: Limiter)
    returns (limited: bool)
    requires anonymous.Valid() && authenticated.Valid()
    modifies if SelectLimiter(req, token).pool == Authenticated then authenticated else anonymous
    ensures anonymous.Valid() && authenticated.Valid()
    ensures var c := SelectLimiter(req, token);
      var l := if c.pool == Authenticated then authenticated else anonymous;
      && (limited <==> !Admit(old(l.Used(c.key)), l.points))
      && l.consumed == Charge(old(l.consumed), c.key, l.points)
  {
    var c := SelectLimiter(req, token);
    var limiter := if c.pool == Authenticated then authenticated else anonymous;
    var allowed := limiter.Consume(c.key);
    limited := !allowed;
  }

  // ---------------------------------------------------------------------------
  // Security headers
  // ---------------------------------------------------------------------------

  /** The directives both policies share, up to connect-src. */
  const SharedDirectives: string :=
    "default-src 'self'; " +
    "script-src 'self' 'unsafe-eval' 'unsafe-inline' https://accounts.google.com; " +
    "style-src 'self' 'unsafe-inline' https://fonts.googleapis.com; " +
    "font-src 'self' https://fonts.gstatic.com; " +
    "img-src 'self' data: https: blob:; " +
    "connect-src 'self' https://api.openai.com https://accounts.google.com https://www.googleapis.com; "

  /** The last directive both policies have; the strict policy goes on
      after it. */
  const FrameDirective: string := "frame-src 'self' https://accounts.google.com;"

  /** The directives only the strict policy has. */
  const TrustedTypesDirectives: string := " " + "trusted-types default; " + "require-trusted-types-for 'script';"

  /** The policy used when NODE_ENV is "development". */
  const DevelopmentCsp: string := SharedDirectives + FrameDirective

  /** The policy used otherwise. */
  const StrictCsp: string := SharedDirectives + FrameDirective + TrustedTypesDirectives

  const Hsts: string := "max-age=31536000; includeSubDomains; preload"
  const PermissionsPolicy: string := "camera=(), microphone=(), geolocation=(), interest-cohort=()"

  /** The content security policy: the relaxed one when NODE_ENV is
      "development", the strict one otherwise. */
  function CspPolicy(nodeEnv: Option<string>): (csp: string)
    ensures csp == DevelopmentCsp <==> nodeEnv == Some("development")
    ensures nodeEnv != Some("development") ==> csp == StrictCsp
  {
    if nodeEnv == Some("development") then DevelopmentCsp else StrictCsp
  }

  /** The strict policy is the development policy with the trusted-types
      directives appended; everything the development policy allows is
      stated the same way in the strict one. */
  lemma StrictCspExtendsDevelopment()
    ensures StrictCsp == DevelopmentCsp + TrustedTypesDirectives
    ensures DevelopmentCsp < StrictCsp
  {
  }

  const SecurityHeaderNames: set<string> :=
    {"Content-Security-Policy", "X-Frame-Options", "X-Content-Type-Options",
     "Referrer-Policy", "Strict-Transport-Security", "Permissions-Policy"}

  /** A header map after `applySecurityHeaders` has set each security header
      over it, in the order it sets them; Strict-Transport-Security only
      when NODE_ENV is "production". */
  function WithSecurityHeaders(m: map<string, string>, nodeEnv: Option<string>): (r: map<string, string>)
    ensures r.Keys == m.Keys + {"Content-Security-Policy", "X-Frame-Options", "X-Content-Type-Options",
                                "Referrer-Policy", "Permissions-Policy"}
                             + (if nodeEnv == Some("production") then {"Strict-Transport-Security"} else {})
  {
    var h := m["Content-Security-Policy" := CspPolicy(nodeEnv)]
              ["X-Frame-Options" := "DENY"]
              ["X-Content-Type-Options" := "nosniff"]
              ["Referrer-Policy" := "strict-origin-when-cross-origin"];
    var h := if nodeEnv == Some("production") then h["Strict-Transport-Security" := Hsts] else h;
    h["Permissions-Policy" := PermissionsPolicy]
  }

  /** The values of the security headers after they are set, whatever the
      map held before; Strict-Transport-Security only in production. */
  lemma SecurityHeadersValues(m: map<string, string>, nodeEnv: Option<string>)
    ensures var r := WithSecurityHeaders(m, nodeEnv);
      && r["Content-Security-Policy"] == CspPolicy(nodeEnv)
      && r["X-Frame-Options"] == "DENY"
      && r["X-Content-Type-Options"] == "nosniff"
      && r["Referrer-Policy"] == "strict-origin-when-cross-origin"
      && r["Permissions-Policy"] == PermissionsPolicy
      && (nodeEnv == Some("production") ==> r["Strict-Transport-Security"] == Hsts)
  {
  }

  /** Setting the security headers adds only security headers and changes no
      other header; Strict-Transport-Security is present afterwards exactly
      when NODE_ENV is "production" or it was already there. */
  lemma SecurityHeadersKeepOthers(m: map<string, string>, nodeEnv: Option<string>)
    ensures var r := WithSecurityHeaders(m, nodeEnv);
      && m.Keys <= r.Keys <= m.Keys + SecurityHeaderNames
      && ("Strict-Transport-Security" in r <==> nodeEnv == Some("production") || "Strict-Transport-Security" in m)
      && (forall k :: k in m && k !in SecurityHeaderNames ==> r[k] == m[k])
  {
  }

  /** Setting the security headers twice leaves the same headers as setting
      them once. */
  lemma SecurityHeadersIdempotent(m: map<string, string>, nodeEnv: Option<string>)
    ensures WithSecurityHeaders(WithSecurityHeaders(m, nodeEnv), nodeEnv) == WithSecurityHeaders(m, nodeEnv)
  {
  }

  /** A response's header list, which `set` updates in place, a later value
      replacing an earlier one under the same name. */
  class Headers {
    var entries: map<string, string>

    constructor ()
      ensures entries == map[]
    {
      entries := map[];
    }

    method Set(name: string, value: string)
      modifies this
      ensures entries == old(entries)[name := value]
    {
      entries := entries[name := value];
    }
  }

  /** `applySecurityHeaders`: set each security header on the response. */
  method ApplySecurityHeaders(response: Headers, nodeEnv: Option<string>)
    modifies response
    ensures response.entries == WithSecurityHeaders(old(response.entries), nodeEnv)
  {
    response.Set("Content-Security-Policy", CspPolicy(nodeEnv));
    response.Set("X-Frame-Options", "DENY");
    response.Set("X-Content-Type-Options", "nosniff");
    response.Set("Referrer-Policy", "strict-origin-when-cross-origin");
    if nodeEnv == Some("production") {
      response.Set("Strict-Transport-Security", Hsts);
    }
    response.Set("Permissions-Policy", PermissionsPolicy);
  }

  // ---------------------------------------------------------------------------
  // Responses and the decision
  // ---------------------------------------------------------------------------

  /** The gate's answer: hand the request on with these response headers,
      or reply at once with a status, headers and a JSON body. */
  datatype Response =
    | Continue(headers: map<string, string>)
    | Reply(status: nat, headers: map<string, string>, body: string)

  const UnauthorizedBody: string := "{\"error\":\"Unauthorized\"}"
  const TooManyRequestsBody: string :=
    "{\"error\":\"Too many requests\",\"message\":\"Rate limit exceeded. Please try again later.\"}"
  const InternalErrorBody: string := "{\"error\":\"Internal server error\"}"

  function JsonHeaders(requestId: string): map<string, string> {
    map["Content-Type" := "application/json", "X-Request-ID" := requestId]
  }

  function Unauthorized(requestId: string): Response {
    Reply(401, JsonHeaders(requestId), UnauthorizedBody)
  }

  /** The 429 reply; its Retry-After is "60" whatever window the limiter has. */
  function TooManyRequests(requestId: string): Response {
    Reply(429, JsonHeaders(requestId)["Retry-After" := "60"], TooManyRequestsBody)
  }

  function InternalError(requestId: string): Response {
    Reply(500, JsonHeaders(requestId), InternalErrorBody)
  }

  /** Whether the gate charges a point to a limiter: a token was read, the
      path is an API path, it needs no session or there is one, and it is
      not exempt from throttling. */
  predicate ConsultsLimiter(path: string, token: TokenResult): (r: bool)
    ensures r ==> !token.Failed? && IsApiPath(path) && !SkipsRateLimit(path)
    ensures token.Session? && IsApiPath(path) && !SkipsRateLimit(path) ==> r
    ensures token.NoSession? && !IsPublicPath(path) ==> !r
  {
    && !token.Failed?
    && IsApiPath(path)
    && (IsPublicPath(path) || token.Session?)
    && !SkipsRateLimit(path)
  }

  /** The decision of `middleware`, given whether the selected limiter
      refuses the request. A failure to read the token gives 500; an API
      path that needs a session and has none gives 401; a charged request
      the limiter refuses gives 429; every other request passes with its
      request id and the security headers. Every answer carries the request
      id, and no rejection carries the security headers. */
  function Gate(req: Request, token: TokenResult, requestId: string, nodeEnv: Option<string>, throttled: bool)
    : (resp: Response)
    ensures resp.Reply? <==>
              || token.Failed?
              || (token.NoSession? && IsApiPath(req.path) && !IsPublicPath(req.path))
              || (ConsultsLimiter(req.path, token) && throttled)
    ensures resp.Reply? ==> resp.status == 401 || resp.status == 429 || resp.status == 500
    ensures resp.Reply? && resp.status == 500 <==> token.Failed?
    ensures resp.Reply? && resp.status == 401 <==>
              token.NoSession? && IsApiPath(req.path) && !IsPublicPath(req.path)
    ensures resp.Reply? && resp.status == 429 <==> ConsultsLimiter(req.path, token) && throttled
    ensures "X-Request-ID" in resp.headers && resp.headers["X-Request-ID"] == requestId
    ensures resp.Reply? ==> resp.headers.Keys !! SecurityHeaderNames
    ensures resp.Reply? && resp.status == 500 ==> resp == InternalError(requestId)
    ensures resp.Reply? && resp.status == 401 ==> resp == Unauthorized(requestId)
    ensures resp.Reply? && resp.status == 429 ==> resp == TooManyRequests(requestId)
    ensures resp.Continue? ==> resp.headers == WithSecurityHeaders(map["X-Request-ID" := requestId], nodeEnv)
  {
    if token.Failed? then InternalError(requestId)
    else if IsApiPath(req.path) && !IsPublicPath(req.path) && token.NoSession? then Unauthorized(requestId)
    else if ConsultsLimiter(req.path, token) && throttled then TooManyRequests(requestId)
    else Continue(WithSecurityHeaders(map["X-Request-ID" := requestId], nodeEnv))
  }

  /** `middleware`: the whole pipeline over the two limiters. The answer is
      the Gate decision for the selected limiter's verdict; a point is
      charged only when the limiter is consulted and admits the request, and
      only to the selected limiter. */
  method HandleRequest(req: Request, token: TokenResult, requestId: string, nodeEnv: Option<string>,
                       anonymous: Limiter, authenticated: Limiter)
    returns (resp: Response)
    requires anonymous != authenticated
    requires anonymous.Valid() && authenticated.Valid()
    modifies anonymous, authenticated
    ensures anonymous.Valid() && authenticated.Valid()
    ensures var c := SelectLimiter(req, SessionToken(token));
      var l := if c.pool == Authenticated then authenticated else anonymous;
      resp == Gate(req, token, requestId, nodeEnv, !Admit(old(l.Used(c.key)), l.points))
    ensures !ConsultsLimiter(req.path, token) ==> unchanged(anonymous, authenticated)
    ensures ConsultsLimiter(req.path, token) && SelectLimiter(req, SessionToken(token)).pool == Anonymous ==>
              && unchanged(authenticated)
              && anonymous.consumed == Charge(old(anonymous.consumed), SelectLimiter(req, SessionToken(token)).key, anonymous.points)
    ensures ConsultsLimiter(req.path, token) && SelectLimiter(req, SessionToken(token)).pool == Authenticated ==>
              && unchanged(anonymous)
              && authenticated.consumed == Charge(old(authenticated.consumed), SelectLimiter(req, SessionToken(token)).key, authenticated.points)
  {
    var response := new Headers();
    response.Set("X-Request-ID", requestId);
    if token.Failed? {
      return InternalError(requestId);
    }
    var session := SessionToken(token);
    if IsApiPath(req.path) {
      if !IsPublicPath(req.path) && session.None? {
        return Unauthorized(requestId);
      }
      if !SkipsRateLimit(req.path) {
        var limited := CheckRateLimit(req, session, anonymous, authenticated);
        if limited {
          return TooManyRequests(requestId);
        }
      }
    }
    ApplySecurityHeaders(response, nodeEnv);
    resp := Continue(response.entries);
  }

  // ---------------------------------------------------------------------------
  // Consequences of the decision
  // ---------------------------------------------------------------------------

  /** A path outside /api/ never gets 401 or 429: unless reading the token
      throws, it passes with its request id and the security headers. */
  lemma NonApiPathPasses(req: Request, token: TokenResult, requestId: string, nodeEnv: Option<string>,
                         throttled: bool)
    requires !IsApiPath(req.path) && !token.Failed?
    ensures Gate(req, token, requestId, nodeEnv, throttled) ==
            Continue(WithSecurityHeaders(map["X-Request-ID" := requestId], nodeEnv))
  {
  }

  /** The sign-in flow's paths pass whatever the credential and however
      many requests came before: they are neither rejected for lack of a
      session nor throttled. */
  lemma ExemptPathsPass(req: Request, token: TokenResult, requestId: string, nodeEnv: Option<string>,
                        throttled: bool)
    requires SkipsRateLimit(req.path) && !token.Failed?
    ensures Gate(req, token, requestId, nodeEnv, throttled).Continue?
    ensures !ConsultsLimiter(req.path, token)
  {
    SkipPathsArePublic(req.path);
  }

  /** The limiter's verdict matters only when it is consulted. */
  lemma VerdictIgnoredUnlessConsulted(req: Request, token: TokenResult, requestId: string,
                                      nodeEnv: Option<string>)
    requires !ConsultsLimiter(req.path, token)
    ensures Gate(req, token, requestId, nodeEnv, true) == Gate(req, token, requestId, nodeEnv, false)
  {
  }

  /** A request without a session to a protected API path gets the 401
      reply with its request id, and no limiter is charged for it. */
  lemma UnauthorizedRequest(req: Request, requestId: string, nodeEnv: Option<string>, throttled: bool)
    requires IsApiPath(req.path) && !IsPublicPath(req.path)
    ensures Gate(req, NoSession, requestId, nodeEnv, throttled) ==
            Reply(401, map["Content-Type" := "application/json", "X-Request-ID" := requestId], UnauthorizedBody)
    ensures !ConsultsLimiter(req.path, NoSession)
  {
  }

  /** When reading the session token throws, the answer is the 500 reply with
      the request id, whatever the path, and no limiter is charged. */
  lemma TokenFailureReply(req: Request, message: string, requestId: string, nodeEnv: Option<string>,
                          throttled: bool)
    ensures Gate(req, Failed(message), requestId, nodeEnv, throttled) ==
            Reply(500, map["Content-Type" := "application/json", "X-Request-ID" := requestId], InternalErrorBody)
    ensures !ConsultsLimiter(req.path, Failed(message))
  {
  }

  /** /api/health needs no session but is throttled like any API path; and
      since the public test is a prefix test, /api/authx needs no session. */
  lemma PublicButThrottled(req: Request, requestId: string, nodeEnv: Option<string>)
    ensures req.path == "/api/health" ==>
              Gate(req, NoSession, requestId, nodeEnv, true) == TooManyRequests(requestId)
    ensures req.path == "/api/authx" ==>
              Gate(req, NoSession, requestId, nodeEnv, false).Continue?
  {
    PathExamples();
  }

  /** The 429 reply: its status, its JSON body, and a Retry-After of 60
      seconds beside the content type and the request id. */
  lemma TooManyRequestsReply(req: Request, token: TokenResult, requestId: string, nodeEnv: Option<string>)
    requires ConsultsLimiter(req.path, token)
    ensures var resp := Gate(req, token, requestId, nodeEnv, true);
      && resp == Reply(429, map["Content-Type" := "application/json", "X-Request-ID" := requestId,
                                "Retry-After" := "60"], TooManyRequestsBody)
  {
  }
}

=== FILE: ratelimit.dfy ===
/** An abstraction of the in-memory per-key limiter the gate uses
    (`RateLimiterMemory`): each key may spend `points` points per window,
    one point per request. Time is abstracted away: a window lasts until
    ExpireWindow is called for its key. The library's own code is not part
    of this model. */
module RateLimit {
  import opened Wrappers
  import opened Text

  /** Whether a request is let through when `used` of the `points` points
      of its key's window are already spent. */
  predicate Admit(used: nat, points: nat) {
    used < points
  }

  /** The points `key` has spent according to `consumed`; a key with no
      entry has spent none. */
  function UsedIn(consumed: map<string, nat>, key: string): nat {
    if key in consumed then consumed[key] else 0
  }

  /** The spent points after one request for `key`: one more point when it
      is admitted, no change when it is refused. Only `key` can change. */
  function Charge(consumed: map<string, nat>, key: string, points: nat): (r: map<string, nat>)
    ensures r.Keys <= consumed.Keys + {key}
    ensures forall k :: k != key ==> UsedIn(r, k) == UsedIn(consumed, k)
    ensures UsedIn(r, key) == if Admit(UsedIn(consumed, key), points) then UsedIn(consumed, key) + 1
                              else UsedIn(consumed, key)
    ensures UsedIn(consumed, key) <= points ==> UsedIn(r, key) <= points
  {
    if Admit(UsedIn(consumed, key), points) then consumed[key := UsedIn(consumed, key) + 1] else consumed
  }

  class Limiter {
    /** The points each key may spend per window. */
    const points: nat
    /** The window length in seconds; kept for reference, time is abstract. */
    const durationSeconds: nat
    /** Points spent in the current window, per key; a key with no entry has
        spent none. */
    var consumed: map<string, nat>

    /** No key has spent more than its window allows. */
    ghost predicate Valid()
      reads this
    {
      forall k :: k in consumed ==> consumed[k] <= points
    }

    constructor (points: nat, durationSeconds: nat)
      ensures this.points == points && this.durationSeconds == durationSeconds
      ensures consumed == map[] && Valid()
    {
      this.points := points;
      this.durationSeconds := durationSeconds;
      consumed := map[];
    }

    /** The points `key` has spent in its current window. */
    function Used(key: string): (n: nat)
      reads this
      ensures key !in consumed ==> n == 0
      ensures Valid() ==> n <= points
    {
      UsedIn(consumed, key)
    }

    /** `consume(key)`: spend one point of `key`'s window. It succeeds
        exactly when a point is left; a refused request spends nothing, and
        no other key is touched. */
    method Consume(key: string) returns (allowed: bool)
      requires Valid()
      modifies this
      ensures Valid()
      ensures allowed <==> Admit(old(Used(key)), points)
      ensures consumed == Charge(old(consumed), key, points)
    {
      allowed := Admit(Used(key), points);
      if allowed {
        consumed := consumed[key := Used(key) + 1];
      }
    }

    /** The end of `key`'s window: its points are available again, so its
        next request is admitted whenever the limiter has any points. */
    method ExpireWindow(key: string)
      requires Valid()
      modifies this
      ensures Valid()
      ensures consumed == old(consumed) - {key}
      ensures Used(key) == 0 && (Admit(Used(key), points) <==> points > 0)
      ensures forall k :: k != key ==> Used(k) == old(Used(k))
    {
      consumed := consumed - {key};
    }
  }

  /** The verdicts of `n` requests in a row for one key within one window,
      starting with `used` points already spent. */
  function Verdicts(used: nat, points: nat, n: nat): (r: seq<bool>)
    ensures |r| == n
    decreases n
  {
    if n == 0 then []
    else if Admit(used, points) then [true] + Verdicts(used + 1, points, n - 1)
    else [false] + Verdicts(used, points, n - 1)
  }

  /** Within one window, request number `i` (counting from 0) is let
      through exactly when fewer than `points` points were spent before it:
      from a fresh window the first `points` requests pass and every later
      one is refused. */
  lemma {:induction false} QuotaPerWindow(used: nat, points: nat, n: nat, i: nat)
    requires i < n
    ensures Verdicts(used, points, n)[i] <==> used + i < points
    decreases n
  {
    if i > 0 {
      if Admit(used, points) {
        QuotaPerWindow(used + 1, points, n - 1, i - 1);
      } else {
        QuotaPerWindow(used, points, n - 1, i - 1);
      }
    }
  }

  /** The verdicts of `n` successive `consume(key)` calls on a limiter whose
      spent points are `consumed`: each call is admitted as Consume admits
      it, and the next call sees the points Charge leaves. */
  function Replay(consumed: map<string, nat>, key: string, points: nat, n: nat): (r: seq<bool>)
    ensures |r| == n
    decreases n
  {
    if n == 0 then []
    else [Admit(UsedIn(consumed, key), points)] + Replay(Charge(consumed, key, points), key, points, n - 1)
  }

  /** Replaying the limiter gives the per-window verdicts from the key's
      points already spent. */
  lemma {:induction false} ReplayMatchesVerdicts(consumed: map<string, nat>, key: string, points: nat, n: nat)
    ensures Replay(consumed, key, points, n) == Verdicts(UsedIn(consumed, key), points, n)
    decreases n
  {
    if n > 0 {
      ReplayMatchesVerdicts(Charge(consumed, key, points), key, points, n - 1);
    }
  }

  /** From a fresh window with the default anonymous capacity of 10, ten
      requests for one key are admitted and the eleventh is refused. */
  lemma EleventhRequestRefused(key: string)
    ensures var v := Replay(map[], key, 10, 11);
      (forall i :: 0 <= i < 10 ==> v[i]) && !v[10]
  {
    ReplayMatchesVerdicts(map[], key, 10, 11);
    forall i | 0 <= i < 11
      ensures Verdicts(0, 10, 11)[i] <==> i < 10
    {
      QuotaPerWindow(0, 10, 11, i);
    }
  }

  /** The limiter settings read from the environment: each value is the
      variable when it is set and not empty, the default otherwise, read with
      `parseInt`. None stands for NaN. */
  datatype LimiterSettings = LimiterSettings(points: Option<int>, durationSeconds: Option<int>)

  /** Reading one limiter variable: the variable when it is set and not
      empty, `fallback` otherwise, read with `parseInt`. With the variable
      unset or empty the default is read back; a variable holding a number in
      decimal gives that number. */
  function ReadSetting(v: Option<string>, fallback: nat): (r: Option<int>)
    ensures !Truthy(v) ==> r == Some(fallback)
    ensures forall n: nat :: v == Some(NatToDecimal(n)) ==> r == Some(n)
  {
    ParseIntOfDecimal(fallback);
    ParseIntsOfDecimals();
    ParseInt(OrDefault(v, NatToDecimal(fallback)))
  }

  lemma ParseIntsOfDecimals()
    ensures forall n: nat :: ParseInt(NatToDecimal(n)) == Some(n)
  {
    forall n: nat ensures ParseInt(NatToDecimal(n)) == Some(n) {
      ParseIntOfDecimal(n);
    }
  }

  /** The anonymous limiter: RATE_LIMIT_POINTS (default 10) and
      RATE_LIMIT_DURATION (default 60). */
  function AnonymousSettings(pointsVar: Option<string>, durationVar: Option<string>): (r: LimiterSettings)
    ensures !Truthy(pointsVar) ==> r.points == Some(10)
    ensures !Truthy(durationVar) ==> r.durationSeconds == Some(60)
    ensures forall n: nat :: pointsVar == Some(NatToDecimal(n)) ==> r.points == Some(n)
    ensures forall n: nat :: durationVar == Some(NatToDecimal(n)) ==> r.durationSeconds == Some(n)
  {
    assert NatToDecimal(10) == "10";
    assert NatToDecimal(60) == "60";
    LimiterSettings(ReadSetting(pointsVar, 10), ReadSetting(durationVar, 60))
  }

  /** The authenticated limiter: RATE_LIMIT_POINTS_AUTH (default 50) and
      the same RATE_LIMIT_DURATION (default 60). */
  function AuthenticatedSettings(pointsVar: Option<string>, durationVar: Option<string>): (r: LimiterSettings)
    ensures !Truthy(pointsVar) ==> r.points == Some(50)
    ensures !Truthy(durationVar) ==> r.durationSeconds == Some(60)
    ensures forall n: nat :: pointsVar == Some(NatToDecimal(n)) ==> r.points == Some(n)
    ensures forall n: nat :: durationVar == Some(NatToDecimal(n)) ==> r.durationSeconds == Some(n)
    ensures r.durationSeconds == AnonymousSettings(pointsVar, durationVar).durationSeconds
  {
    assert NatToDecimal(50) == "50";
    assert NatToDecimal(60) == "60";
    LimiterSettings(ReadSetting(pointsVar, 50), ReadSetting(durationVar, 60))
  }
}

=== FILE: sanitize.dfy ===
/** Redaction of sensitive values before they reach a log
    (`sanitizeLogData` in lib/logging.ts). */
module Sanitize {
  import opened Wrappers
  import opened Text
  import opened Json

  /** The field-name fragments that mark a value as sensitive, as listed. */
  const SensitiveFields: seq<string> :=
    ["password", "token", "accessToken", "refreshToken", "secret", "key", "authorization", "cookie"]

  /** The same rule without the redundant entries: "accesstoken" and
      "refreshtoken" both contain "token". */
  const CorePatterns: seq<string> := ["password", "token", "secret", "key", "authorization", "cookie"]

  /** What a sensitive value is replaced by. */
  const Redacted: Value := Str("[REDACTED]")

  /** The key an assignment `result[key] = ...` on a plain object does not
      create as an own property: it sets the object's prototype instead. */
  const ProtoKey: string := "__proto__"

  /** A key is sensitive when its lower-cased name contains the lower-cased
      form of one of the sensitive fragments, anywhere in it. */
  predicate IsSensitiveKey(key: string) {
    exists i :: 0 <= i < |SensitiveFields| && Contains(Lower(key), Lower(SensitiveFields[i]))
  }

  /** A value in which every sensitive key, at every depth, holds the
      redaction marker and no object has an own "__proto__" key: the values
      sanitising produces. */
  predicate Clean(v: Value) {
    match v
    case Arr(items) => forall i :: 0 <= i < |items| ==> Clean(items[i])
    case Obj(fields) =>
      && ProtoKey !in fields
      && forall k :: k in fields ==> if IsSensitiveKey(k) then fields[k] == Redacted else Clean(fields[k])
    case _ => true
  }

  /** `sanitizeObject`: primitives and null are returned as they are, arrays
      element by element, and objects key by key, a sensitive key's value
      being replaced by the marker and any other value sanitised in turn. An
      own "__proto__" key is lost: assigning it on the fresh result object
      sets the result's prototype and creates no own property. The result is
      a new value; the input is not changed. */
  function SanitizeValue(v: Value): (r: Value)
    ensures v.IsPrimitive() ==> r == v
    ensures v.Arr? ==> r.Arr? && |r.items| == |v.items|
    ensures v.Obj? ==> r.Obj? && r.fields.Keys == v.fields.Keys - {ProtoKey}
    ensures Clean(r)
  {
    match v
    case Arr(items) => Arr(seq(|items|, i requires 0 <= i < |items| => SanitizeValue(items[i])))
    case Obj(fields) =>
      Obj(map k | k in fields && k != ProtoKey :: if IsSensitiveKey(k) then Redacted else SanitizeValue(fields[k]))
    case _ => v
  }

  /** `sanitizeLogData`: the record is copied, then sanitised as an object. */
  function SanitizeLogData(data: map<string, Value>): (r: map<string, Value>)
    ensures r.Keys == data.Keys - {ProtoKey}
    ensures Clean(Obj(r))
    ensures forall k :: k in data && IsSensitiveKey(k) ==> k in r && r[k] == Redacted
  {
    ProtoKeyNotSensitive();
    // The copy `{...data}` needs no counterpart: a value cannot be aliased.
    SanitizeValue(Obj(data)).fields
  }

  // ---------------------------------------------------------------------------
  // Which keys are sensitive
  // ---------------------------------------------------------------------------

  lemma LowerFields()
    ensures Lower(SensitiveFields[0]) == CorePatterns[0]
    ensures Lower(SensitiveFields[1]) == CorePatterns[1]
    ensures Lower(SensitiveFields[2]) == "accesstoken"
    ensures Lower(SensitiveFields[3]) == "refreshtoken"
    ensures Lower(SensitiveFields[4]) == CorePatterns[2]
    ensures Lower(SensitiveFields[5]) == CorePatterns[3]
    ensures Lower(SensitiveFields[6]) == CorePatterns[4]
    ensures Lower(SensitiveFields[7]) == CorePatterns[5]
  {
    assert Lower("accessToken") == "accesstoken";
    assert Lower("refreshToken") == "refreshtoken";
  }

  /** The eight listed fragments reduce to six: a key is sensitive exactly
      when its lower-cased name contains one of CorePatterns. */
  lemma SensitiveKeyCore(key: string)
    ensures IsSensitiveKey(key) <==>
            exists j :: 0 <= j < |CorePatterns| && Contains(Lower(key), CorePatterns[j])
  {
    LowerFields();
    var low := Lower(key);
    if Contains(low, "accesstoken") {
      ContainsAt("accesstoken", "token", 6);
      ContainsTransitive(low, "accesstoken", "token");
      assert Contains(low, CorePatterns[1]);
    }
    if Contains(low, "refreshtoken") {
      ContainsAt("refreshtoken", "token", 7);
      ContainsTransitive(low, "refreshtoken", "token");
      assert Contains(low, CorePatterns[1]);
    }
    if exists j :: 0 <= j < |CorePatterns| && Contains(low, CorePatterns[j]) {
      var j :| 0 <= j < |CorePatterns| && Contains(low, CorePatterns[j]);
      var i := [0, 1, 4, 5, 6, 7][j];
      assert Contains(low, Lower(SensitiveFields[i]));
    }
  }

  /** "__proto__" contains none of the fragments, so it is never redacted;
      it is dropped instead. */
  lemma ProtoKeyNotSensitive()
    ensures !IsSensitiveKey(ProtoKey)
  {
    var low := Lower(ProtoKey);
    assert low == ProtoKey;
    LowerFields();
    var missing := ['a', 'k', 'a', 'e', 'e', 'k', 'a', 'c'];
    forall i | 0 <= i < |SensitiveFields|
      ensures !Contains(low, Lower(SensitiveFields[i]))
    {
      assert missing[i] in Lower(SensitiveFields[i]) && missing[i] !in low;
      if Contains(low, Lower(SensitiveFields[i])) {
        ContainsChar(low, Lower(SensitiveFields[i]), missing[i]);
      }
    }
  }

  /** An own "__proto__" key, as parsed JSON can carry, does not survive
      sanitising, while its sibling keys do. */
  lemma ProtoKeyDropped(inner: Value, other: Value)
    ensures SanitizeValue(Obj(map[ProtoKey := inner])) == Obj(map[])
    ensures SanitizeValue(Obj(map[ProtoKey := inner, "name" := other])).fields.Keys == {"name"}
  {
    assert SanitizeValue(Obj(map[ProtoKey := inner])).fields == map[];
  }

  /** The match ignores case: a key and its lower-cased form are both
      sensitive or both not. */
  lemma SensitiveKeyIgnoresCase(key: string)
    ensures IsSensitiveKey(key) <==> IsSensitiveKey(Lower(key))
  {
    LowerIdempotent(key);
  }

  /** The match is by substring, so it is broader than the names listed: a
      key such as "monkey" is redacted because it contains "key". */
  lemma MonkeyIsSensitive()
    ensures IsSensitiveKey("monkey")
  {
    assert Lower("monkey") == "monkey";
    assert Lower(SensitiveFields[5]) == "key";
    ContainsAt("monkey", "key", 3);
  }

  // ---------------------------------------------------------------------------
  // What sanitising does to a value
  // ---------------------------------------------------------------------------

  /** A value that is already clean is returned unchanged. */
  lemma {:induction false} SanitizeKeepsClean(v: Value)
    requires Clean(v)
    ensures SanitizeValue(v) == v
  {
    match v
    case Arr(items) =>
      forall i | 0 <= i < |items| ensures SanitizeValue(items[i]) == items[i] {
        SanitizeKeepsClean(items[i]);
      }
      assert SanitizeValue(v).items == items;
    case Obj(fields) =>
      forall k | k in fields && k != ProtoKey && !IsSensitiveKey(k) ensures SanitizeValue(fields[k]) == fields[k] {
        SanitizeKeepsClean(fields[k]);
      }
      assert SanitizeValue(v).fields == fields;
    case _ =>
  }

  /** Sanitising leaves a value unchanged exactly when it is clean. */
  lemma SanitizeUnchangedIff(v: Value)
    ensures SanitizeValue(v) == v <==> Clean(v)
  {
    if Clean(v) {
      SanitizeKeepsClean(v);
    }
  }

  /** Sanitising twice gives the same result as sanitising once. */
  lemma SanitizeIdempotent(v: Value)
    ensures SanitizeValue(SanitizeValue(v)) == SanitizeValue(v)
  {
    SanitizeKeepsClean(SanitizeValue(v));
  }

  /** A path that passes through no sensitive key and no "__proto__" key. */
  predicate Exposed(path: seq<Step>) {
    forall j :: 0 <= j < |path| ==> !(path[j].Field? && (IsSensitiveKey(path[j].name) || path[j].name == ProtoKey))
  }

  /** Nothing else changes: along a path through no sensitive key, the
      sanitised value has a value exactly where the input has one, and it is
      the sanitised form of the input's value there. */
  lemma {:induction false} SanitizeAt(v: Value, path: seq<Step>)
    requires Exposed(path)
    ensures At(SanitizeValue(v), path) ==
            if At(v, path).Some? then Some(SanitizeValue(At(v, path).value)) else None
  {
    if path != [] {
      assert Exposed(path[1..]) by {
        forall j | 0 <= j < |path[1..]|
          ensures !(path[1..][j].Field? && (IsSensitiveKey(path[1..][j].name) || path[1..][j].name == ProtoKey))
        {
          assert path[1..][j] == path[j + 1];
        }
      }
      var r := SanitizeValue(v);
      match path[0]
      case Field(k) =>
        assert !IsSensitiveKey(k) && k != ProtoKey by { assert path[0] == Field(k); }
        if v.Obj? && k in v.fields {
          assert r.fields[k] == SanitizeValue(v.fields[k]);
          SanitizeAt(v.fields[k], path[1..]);
        }
      case Index(i) =>
        if v.Arr? && i < |v.items| {
          assert r.items[i] == SanitizeValue(v.items[i]);
          SanitizeAt(v.items[i], path[1..]);
        }
    }
  }

  /** Every primitive reached through no sensitive key survives unchanged. */
  lemma PrimitiveKept(v: Value, path: seq<Step>, p: Value)
    requires Exposed(path) && p.IsPrimitive() && At(v, path) == Some(p)
    ensures At(SanitizeValue(v), path) == Some(p)
  {
    SanitizeAt(v, path);
  }

  /** Every object reached through no sensitive key keeps its set of keys,
      apart from an own "__proto__" key. */
  lemma KeysKept(v: Value, path: seq<Step>, fields: map<string, Value>)
    requires Exposed(path) && At(v, path) == Some(Obj(fields))
    ensures At(SanitizeValue(v), path).Some?
    ensures At(SanitizeValue(v), path).value.Obj?
    ensures At(SanitizeValue(v), path).value.fields.Keys == fields.Keys - {ProtoKey}
  {
    SanitizeAt(v, path);
  }

  /** The redaction rule at any depth: a sensitive key reached through no
      other sensitive key holds the marker after sanitising, whatever it held
      before. */
  lemma RedactedAt(v: Value, path: seq<Step>, key: string)
    requires Exposed(path) && IsSensitiveKey(key)
    requires At(v, path + [Field(key)]).Some?
    ensures At(SanitizeValue(v), path + [Field(key)]) == Some(Redacted)
  {
    ProtoKeyNotSensitive();
    AtSnoc(v, path, Field(key));
    AtSnoc(SanitizeValue(v), path, Field(key));
    SanitizeAt(v, path);
    var w := At(v, path).value;
    assert w.Obj? && key in w.fields;
    assert SanitizeValue(w).fields[key] == Redacted;
  }
}

=== FILE: text.dfy ===
/** The JavaScript string operations the gate and the logger rely on:
    `trim`, `split(",")[0]`, `startsWith`, `includes`, `toLowerCase`,
    `parseInt` and the rendering of integers in template literals. */
module Text {
  import opened Wrappers

  // ---------------------------------------------------------------------------
  // Truthiness of optional strings
  // ---------------------------------------------------------------------------

  /** Whether a string that may be undefined is truthy: present and not empty. */
  predicate Truthy(v: Option<string>) {
    v.Some? && v.value != ""
  }

  /** `v || fallback` for a string that may be undefined: an empty string
      counts as absent. */
  function OrDefault(v: Option<string>, fallback: string): (r: string)
    ensures Truthy(v) ==> r == v.value
    ensures !Truthy(v) ==> r == fallback
  {
    if Truthy(v) then v.value else fallback
  }

  // ---------------------------------------------------------------------------
  // Whitespace and trim
  // ---------------------------------------------------------------------------

  /** The characters `String.prototype.trim` and `parseInt` skip: the
      WhiteSpace and LineTerminator code points of ECMAScript. */
  predicate IsJsWhitespace(c: char) {
    || c == '\t' || c == '\n' || c == '\U{000B}' || c == '\U{000C}' || c == '\r'
    || c == ' ' || c == '\U{00A0}' || c == '\U{1680}'
    || ('\U{2000}' <= c <= '\U{200A}')
    || c == '\U{2028}' || c == '\U{2029}' || c == '\U{202F}' || c == '\U{205F}'
    || c == '\U{3000}' || c == '\U{FEFF}'
  }

  predicate AllWhitespace(s: string) {
    forall i :: 0 <= i < |s| ==> IsJsWhitespace(s[i])
  }

  /** `s` with its leading whitespace removed: a suffix of `s`, everything cut
      off is whitespace, and what remains does not start with whitespace. */
  function TrimStart(s: string): (r: string)
    ensures |r| <= |s| && r == s[|s| - |r|..]
    ensures AllWhitespace(s[..|s| - |r|])
    ensures r == [] || !IsJsWhitespace(r[0])
  {
    if s != [] && IsJsWhitespace(s[0]) then TrimStart(s[1..]) else s
  }

  /** `s` with its trailing whitespace removed. */
  function TrimEnd(s: string): (r: string)
    ensures |r| <= |s| && r == s[..|r|]
    ensures AllWhitespace(s[|r|..])
    ensures r == [] || !IsJsWhitespace(r[|r| - 1])
  {
    if s != [] && IsJsWhitespace(s[|s| - 1]) then TrimEnd(s[..|s| - 1]) else s
  }

  /** `String.prototype.trim`: the slice of `s` between its leading and its
      trailing whitespace. */
  function Trim(s: string): (r: string)
    ensures |r| <= |s|
    ensures r == [] || (!IsJsWhitespace(r[0]) && !IsJsWhitespace(r[|r| - 1]))
  {
    TrimEnd(TrimStart(s))
  }

  /** Trimming only removes characters: every character of the result
      occurs in the input. */
  lemma TrimKeepsCharacters(s: string, c: char)
    requires c in Trim(s)
    ensures c in s
  {
    var t := TrimStart(s);
    var r := TrimEnd(t);
    var i :| 0 <= i < |r| && r[i] == c;
    assert t[i] == c;
    assert s[|s| - |t| + i] == c;
  }

  lemma {:induction false} TrimStartAround(pre: string, rest: string)
    requires AllWhitespace(pre)
    requires rest == [] || !IsJsWhitespace(rest[0])
    ensures TrimStart(pre + rest) == rest
  {
    if pre != [] {
      assert (pre + rest)[1..] == pre[1..] + rest;
      TrimStartAround(pre[1..], rest);
    } else {
      assert pre + rest == rest;
    }
  }

  lemma {:induction false} TrimEndAround(rest: string, post: string)
    requires AllWhitespace(post)
    requires rest == [] || !IsJsWhitespace(rest[|rest| - 1])
    ensures TrimEnd(rest + post) == rest
  {
    if post != [] {
      var s := rest + post;
      assert s[..|s| - 1] == rest + post[..|post| - 1];
      TrimEndAround(rest, post[..|post| - 1]);
    } else {
      assert rest + post == rest;
    }
  }

  /** Trim is characterised by its result: whatever whitespace surrounds a
      string that neither starts nor ends with whitespace is cut away, and
      exactly that string is left. */
  lemma TrimAround(pre: string, mid: string, post: string)
    requires AllWhitespace(pre) && AllWhitespace(post)
    requires mid == [] || (!IsJsWhitespace(mid[0]) && !IsJsWhitespace(mid[|mid| - 1]))
    ensures Trim(pre + mid + post) == mid
  {
    if mid == [] {
      assert pre + mid + post == pre + post;
      assert AllWhitespace(pre + post);
      assert pre + post == (pre + post) + [];
      TrimStartAround(pre + post, []);
      assert TrimEnd([]) == [];
    } else {
      assert pre + mid + post == pre + (mid + post);
      assert (mid + post)[0] == mid[0];
      TrimStartAround(pre, mid + post);
      TrimEndAround(mid, post);
    }
  }

  // ---------------------------------------------------------------------------
  // split(",")[0]
  // ---------------------------------------------------------------------------

  /** `s.split(",")[0]`: the longest prefix of `s` without a comma. It stops
      at the first comma, or is all of `s` when there is none. */
  function BeforeFirstComma(s: string): (r: string)
    ensures r <= s
    ensures ',' !in r
    ensures r == s || s[|r|] == ','
  {
    if s == [] || s[0] == ',' then [] else [s[0]] + BeforeFirstComma(s[1..])
  }

  /** The first entry is exactly the text before the first comma: a
      comma-free `first` followed by nothing or by a comma and anything. */
  lemma {:induction false} BeforeFirstCommaOf(first: string, rest: string)
    requires ',' !in first
    requires rest == [] || rest[0] == ','
    ensures BeforeFirstComma(first + rest) == first
  {
    if first == [] {
      assert first + rest == rest;
    } else {
      assert (first + rest)[0] == first[0];
      assert (first + rest)[1..] == first[1..] + rest;
      BeforeFirstCommaOf(first[1..], rest);
      assert [first[0]] + first[1..] == first;
    }
  }

  // ---------------------------------------------------------------------------
  // startsWith and includes
  // ---------------------------------------------------------------------------

  /** `s.startsWith(prefix)`. */
  predicate StartsWith(s: string, prefix: string): (r: bool)
    ensures r <==> |prefix| <= |s| && forall i :: 0 <= i < |prefix| ==> s[i] == prefix[i]
  {
    prefix <= s
  }

  /** `s.includes(part)`: `part` occurs in `s` at some position. */
  predicate Contains(s: string, part: string)
    decreases |s|
  {
    part <= s || (s != [] && Contains(s[1..], part))
  }

  lemma {:induction false} ContainsAt(s: string, part: string, i: nat)
    requires i + |part| <= |s| && s[i..i + |part|] == part
    ensures Contains(s, part)
  {
    if i > 0 {
      assert s[1..][i - 1..i - 1 + |part|] == part;
      ContainsAt(s[1..], part, i - 1);
    } else {
      assert part <= s;
    }
  }

  lemma {:induction false} ContainsWitness(s: string, part: string) returns (i: nat)
    requires Contains(s, part)
    ensures i + |part| <= |s| && s[i..i + |part|] == part
  {
    if part <= s {
      i := 0;
    } else {
      var j := ContainsWitness(s[1..], part);
      assert s[1..][j..j + |part|] == s[j + 1..j + 1 + |part|];
      i := j + 1;
    }
  }

  /** Every character of a part a string includes occurs in the string. */
  lemma ContainsChar(s: string, part: string, c: char)
    requires Contains(s, part) && c in part
    ensures c in s
  {
    var i := ContainsWitness(s, part);
    var j :| 0 <= j < |part| && part[j] == c;
    assert s[i + j] == s[i..i + |part|][j];
  }

  /** `includes` is transitive: a string containing `mid` contains every
      part of `mid`. */
  lemma ContainsTransitive(s: string, mid: string, part: string)
    requires Contains(s, mid) && Contains(mid, part)
    ensures Contains(s, part)
  {
    var i := ContainsWitness(s, mid);
    var j := ContainsWitness(mid, part);
    forall k | 0 <= k < |part|
      ensures s[i + j + k] == part[k]
    {
      assert mid[j + k] == part[k];
      assert s[i + j + k] == s[i..i + |mid|][j + k];
    }
    assert s[i + j..i + j + |part|] == part;
    ContainsAt(s, part, i + j);
  }

  // ---------------------------------------------------------------------------
  // toLowerCase
  // ---------------------------------------------------------------------------

  /** The lower-case form of one character: A-Z map to a-z, and the Kelvin
      sign U+212A, whose Unicode lower case is the ASCII letter 'k', maps to
      'k'. Every other character is kept. */
  function LowerChar(c: char): (r: char)
    ensures !('A' <= r <= 'Z')
  {
    if 'A' <= c <= 'Z' then (c as int + 32) as char
    else if c == '\U{212A}' then 'k'
    else c
  }

  /** `s.toLowerCase()`, character by character. */
  function Lower(s: string): (r: string)
    ensures |r| == |s|
    ensures forall i :: 0 <= i < |s| ==> r[i] == LowerChar(s[i])
  {
    seq(|s|, i requires 0 <= i < |s| => LowerChar(s[i]))
  }

  /** Lower-casing twice is lower-casing once. */
  lemma LowerIdempotent(s: string)
    ensures Lower(Lower(s)) == Lower(s)
  {
    forall i | 0 <= i < |s|
      ensures Lower(Lower(s))[i] == Lower(s)[i]
    {
      var c := s[i];
      if 'A' <= c <= 'Z' {
        assert LowerChar(c) == (c as int + 32) as char;
      }
    }
  }

  // ---------------------------------------------------------------------------
  // Numbers as text
  // ---------------------------------------------------------------------------

  predicate IsDecimalDigit(c: char) {
    '0' <= c <= '9'
  }

  /** The value of a digit in bases up to 36: 0-9, then a-z or A-Z for 10-35;
      36 for any other character, a value no base accepts. */
  function DigitValue(c: char): (d: nat)
    ensures d <= 36
    ensures d < 10 <==> IsDecimalDigit(c)
  {
    if '0' <= c <= '9' then c as int - '0' as int
    else if 'a' <= c <= 'z' then c as int - 'a' as int + 10
    else if 'A' <= c <= 'Z' then c as int - 'A' as int + 10
    else 36
  }

  /** The longest prefix of `s` made of digits of base `radix`. */
  function DigitPrefix(s: string, radix: nat): (r: string)
    ensures r <= s
    ensures forall i :: 0 <= i < |r| ==> DigitValue(r[i]) < radix
    ensures r == s || DigitValue(s[|r|]) >= radix
  {
    if s == [] || DigitValue(s[0]) >= radix then [] else [s[0]] + DigitPrefix(s[1..], radix)
  }

  /** The number the digits `d` denote in base `radix`, most significant first. */
  function DigitsValue(d: string, radix: nat): nat
  {
    if d == [] then 0 else DigitsValue(d[..|d| - 1], radix) * radix + DigitValue(d[|d| - 1])
  }

  /** The digits of base `radix` at the start of `s` and their value; None
      when there is no such digit. */
  function ReadDigits(s: string, radix: nat): (r: Option<nat>)
    ensures r == None <==> s == [] || DigitValue(s[0]) >= radix
  {
    var digits := DigitPrefix(s, radix);
    if digits == [] then None else Some(DigitsValue(digits, radix))
  }

  /** The unsigned part of `parseInt`: a "0x"/"0X" prefix selects base 16,
      anything else is read in base 10. */
  function ReadMagnitude(u: string): Option<nat>
  {
    if |u| >= 2 && u[0] == '0' && (u[1] == 'x' || u[1] == 'X') then ReadDigits(u[2..], 16)
    else ReadDigits(u, 10)
  }

  /** `parseInt(s)` with no radix argument: leading whitespace is skipped, one
      sign is allowed, then the magnitude is read. No digit at all gives NaN,
      modelled as None. */
  function ParseInt(s: string): (r: Option<int>)
    ensures var t := TrimStart(s);
      (t == [] || (!IsDecimalDigit(t[0]) && t[0] != '-' && t[0] != '+')) ==> r == None
    ensures var t := TrimStart(s);
      t != [] && '1' <= t[0] <= '9' ==> r.Some? && r.value >= 0
    ensures var t := TrimStart(s);
      t != [] && t[0] == '-' && r.Some? ==> r.value <= 0
  {
    var t := TrimStart(s);
    var signed := t != [] && (t[0] == '-' || t[0] == '+');
    match ReadMagnitude(if signed then t[1..] else t)
    case None => None
    case Some(m) =>
      var v: int := m;
      if t[0] == '-' then Some(-v) else Some(v)
  }

  /** The decimal rendering of a natural number, as a template literal writes
      it: digits only, no leading zero. */
  function NatToDecimal(n: nat): (r: string)
    ensures r != []
    ensures forall i :: 0 <= i < |r| ==> IsDecimalDigit(r[i])
    ensures |r| > 1 ==> r[0] != '0'
  {
    var last := ['0' + (n % 10) as char];
    if n < 10 then last else NatToDecimal(n / 10) + last
  }

  /** The decimal rendering of an integer: a minus sign before negative ones. */
  function IntToDecimal(n: int): (r: string)
    ensures r != []
    ensures r[0] == '-' <==> n < 0
  {
    if n < 0 then "-" + NatToDecimal(-n) else NatToDecimal(n)
  }

  lemma {:induction false} DigitsValueOfDecimal(n: nat)
    ensures DigitsValue(NatToDecimal(n), 10) == n
  {
    var r := NatToDecimal(n);
    if n >= 10 {
      DigitsValueOfDecimal(n / 10);
      assert r[..|r| - 1] == NatToDecimal(n / 10);
    }
  }

  /** The digits of a rendered number read back as that number. */
  lemma ReadDigitsOfDecimal(n: nat)
    ensures ReadDigits(NatToDecimal(n), 10) == Some(n)
  {
    var r := NatToDecimal(n);
    forall i | 0 <= i < |r| ensures DigitValue(r[i]) < 10 {
      assert IsDecimalDigit(r[i]);
    }
    DigitPrefixAll(r, 10);
    DigitsValueOfDecimal(n);
  }

  /** Reading back a rendered number gives the number: `parseInt` inverts the
      rendering of natural numbers. */
  lemma ParseIntOfDecimal(n: nat)
    ensures ParseInt(NatToDecimal(n)) == Some(n)
  {
    var r := NatToDecimal(n);
    assert IsDecimalDigit(r[0]);
    ParseIntUnsigned(r);
    ReadMagnitudeOfDecimal(n);
  }

  /** A string that starts with a digit is read by `parseInt` as its
      unsigned magnitude. */
  lemma ParseIntUnsigned(t: string)
    requires t != [] && IsDecimalDigit(t[0])
    ensures ParseInt(t) == ReadMagnitude(t)
  {
    assert TrimStart(t) == t;
  }

  /** The unsigned reading of a rendered number is that number: no "0x"
      prefix can occur, since a rendering has no leading zero. */
  lemma ReadMagnitudeOfDecimal(n: nat)
    ensures ReadMagnitude(NatToDecimal(n)) == Some(n)
  {
    var r := NatToDecimal(n);
    assert ReadMagnitude(r) == ReadDigits(r, 10) by {
      assert |r| >= 2 ==> r[0] != '0';
    }
    ReadDigitsOfDecimal(n);
  }

  /** `parseInt` inverts the rendering of every integer, negative ones
      included. */
  lemma ParseIntOfIntDecimal(n: int)
    ensures ParseInt(IntToDecimal(n)) == Some(n)
  {
    if n < 0 {
      var r := IntToDecimal(n);
      assert TrimStart(r) == r;
      assert r[1..] == NatToDecimal(-n);
      ReadMagnitudeOfDecimal(-n);
    } else {
      ParseIntOfDecimal(n);
    }
  }

  lemma {:induction false} DigitPrefixAll(s: string, radix: nat)
    requires forall i :: 0 <= i < |s| ==> DigitValue(s[i]) < radix
    ensures DigitPrefix(s, radix) == s
  {
    if s != [] {
      DigitPrefixAll(s[1..], radix);
      assert [s[0]] + s[1..] == s;
    }
  }
}

=== FILE: wrappers.dfy ===
/** A value that may be absent: a header that was not sent, an environment
    variable that is not set, a JavaScript `undefined` or `null`. */
module Wrappers {

  datatype Option<+T> = None | Some(value: T)

}
